=== FILE: README.md ===
# HealthTrack Diabetes — a Dafny model of its decision rules

HealthTrack Diabetes is a Streamlit application built around a pre-trained
diabetes classifier. The UI and library calls sit on top of a small set of
exact rules, and this project models those rules:

- **Prediction form** (`pages/predictions.py`):
  - the 21 health indicators, in `feature_info` order;
  - which input each indicator is asked through;
  - how answers become codes: yes/no, sex, general health 1..5 and education 1..6;
  - age in years becomes one of 13 groups, and income in dollars one of 8;
  - body-mass index from weight and height;
  - the three demo profiles;
  - the label rule on the two class probabilities;
  - the sentence shown with the label;
  - `save_prediction_to_db`, which keeps one row per user per day; the page
    also saves when nobody is logged in, and such a save (user id `None`)
    always inserts a new row.
- **Login page** (`login.py`):
  - `generate_unique_id`: lower-cased surname plus a counter;
  - `save_user`: insert-or-ignore under the UNIQUE `email` and `unique_id` columns;
  - `user_exists`;
  - the Submit decision of `login_page` and the session flags it sets.
- **Attribution post-processing** (`utils.py`):
  - `explain_model`: length check, name/value pairing, sort by descending absolute value;
  - `generate_recommendations`: the positive and negative groups and the prompt that embeds them.
- **Dashboard** (`pages/dashboard.py`):
  - `map_value` and the education, age and income maps, each checked against the prediction page's encoding;
  - the "id - email" selection string;
  - the gender label;
  - the plottable-column filter and its default selection;
  - the healthy/unhealthy split of BMI readings.
- **Legacy page** (`app.py`): 21 number inputs between 0 and 100, and the "Diabetes Present" / "No Diabetes" rule.

Modules:

| module | file | models |
|---|---|---|
| `Wrappers` | wrappers.dfy | `Option` and `Result` |
| `Seqs` | seqs.dfy | order-preserving selection (`df[mask]`, comprehension with `if`) |
| `Text` | text.dfy | `str.split()`, `str.lower()`, `isdigit`, `int`/`str` on numerals, `replace(p, "")`, `split(sep)[0]` |
| `Predictions` | predictions.dfy | the feature schema, input encoding, label rule |
| `PredictionStore` | prediction_store.dfy | the `predictions` table and its per-day upsert |
| `PredictionPage` | prediction_page.dfy | one press of "Predict" |
| `UniqueIds` | unique_ids.dfy | `generate_unique_id` |
| `Login` | login.dfy | `users` table, `save_user`, `user_exists`, the login form |
| `Attribution` | attribution.dfy | `explain_model` after the explainer, `generate_recommendations` up to the model call |
| `Dashboard` | dashboard.dfy | the dashboard's decoding of stored rows |
| `LegacyApp` | legacy_app.dfy | `app.py` |

Probabilities, attribution values and BMI are `real`. Tables are sequences
of records in row-id order. Each table also carries the next row id it will
hand out. Things the program reads from outside become parameters:

- the classifier's two probabilities;
- the attribution values;
- today's date;
- how a percentage is rendered with two decimals (a function applied to the verdict's percentage);
- whether the save succeeds.

## Model

| member | source | states |
|---|---|---|
| Predictions.SchemaShape | pages/predictions.py:80-102 | The schema has 21 features, lists every feature, and lists each only once. |
| Predictions.SchemaNames | pages/predictions.py:80-102 | `FeatureNames` holds each feature's key text at that feature's position. Distinct features have distinct key texts. |
| Predictions.YesNoCode | pages/predictions.py:280-286 | A yes/no answer encodes to 1 iff it is "Yes", otherwise 0. |
| Predictions.SexCode | pages/predictions.py:221-225 | Sex encodes to 1 iff the answer is "Male", otherwise 0. |
| Predictions.GenHlthCode | pages/predictions.py:206-219 | A listed general-health answer encodes to its 1-based position in the option list, within 1..5. |
| Predictions.EducationCode | pages/predictions.py:264-278 | A listed education answer encodes to its 1-based position in the option list, within 1..6. |
| Predictions.GenHlthMapBijective | pages/predictions.py:207-216 | The options are exactly the listed labels. Label i has code i+1. Distinct answers get distinct codes. |
| Predictions.EducationMapBijective | pages/predictions.py:265-275 | The same for the six education answers and codes 1..6. |
| Predictions.AgeBracket | pages/predictions.py:233-246 | The group is in 1..13. It is 1 iff age ≤ 24 and 13 iff age ≥ 80. Groups 2..12 cover ages 5g+15..5g+19. |
| Predictions.AgeBracketMonotone | pages/predictions.py:233-246 | An older age never gets a lower group. |
| Predictions.AgeBracketClosedForm | pages/predictions.py:235-245 | For ages 25..79 the group is (age-25)/5 + 2. |
| Predictions.IncomeBracket | pages/predictions.py:254-262 | The group is in 1..8. It is 1 iff income < 10000 and 8 iff income ≥ 75000. Otherwise it lies between two consecutive thresholds, with strict `<` bounds. |
| Predictions.IncomeBracketCountsThresholds | pages/predictions.py:254-262 | The group is 1 plus the number of thresholds the income has reached. |
| Predictions.IncomeBracketMonotone | pages/predictions.py:254-262 | A higher income never gets a lower group. |
| Predictions.BracketBoundaries | pages/predictions.py:233-262 | Age 24→1, 25→2, 30→3, 79→12 and 80→13. Income 9999→1, 10000→2, 74999→7 and 75000→8. |
| Predictions.Bmi | pages/predictions.py:199-203 | For positive height, BMI × height² = weight. Otherwise BMI is 0. A non-negative weight gives a non-negative BMI. |
| Predictions.EncodeWithinSchema | pages/predictions.py:198-294 | Every answer an input admits is encoded within its feature's range: a 0/1 flag, a code, a day count or a non-negative BMI. |
| Predictions.InputOf | pages/predictions.py:198-294 | The form's branch order decides each feature's input: weight and height iff BMI on a custom entry, a plain number iff MentHlth, PhysHlth or a demo's BMI, and a "No"/"Yes" select iff the feature is none of BMI, GenHlth, Sex, Age, Income, Education, MentHlth, PhysHlth. GenHlth, Sex, Age, Income and Education each get their own input. |
| Predictions.Encode | pages/predictions.py:198-294 | A yes/no answer is 1 iff "Yes" and 0 iff "No". Sex is 1 iff "Male" and 0 iff "Female". A number input passes its number through. Weight and height give `Bmi(weight, height)`. General health, age, income and education give a code ≥ 1. |
| Predictions.BuildVector | pages/predictions.py:195-300 | The vector has 21 values in schema order, each within its feature's range. The value at feature f's position is the encoding of the answer given for f. |
| Predictions.DemoDefault | pages/predictions.py:214-292 | The default an input preselects for a demo value is an answer that input admits. |
| Predictions.DemoDefaultRoundTrip | pages/predictions.py:206-294 | Accepting a demo default gives back the demo value for selects and plain numbers. Ages and incomes are re-bracketed. |
| Predictions.DemoValue | pages/predictions.py:110-180 | Every demo value except the age already lies in its feature's encoded range. The ages are years between 18 and 120. |
| Predictions.DemoProfilesFit | pages/predictions.py:110-180 | Every demo value fits its feature's input: a valid option index or a value within the bounds. |
| Predictions.DemoProfileOneBrackets | pages/predictions.py:129-131 | The first profile's age 65 and income 2 are read as years and dollars, giving group 10 and income group 1. |
| Predictions.Decide | pages/predictions.py:313-320 | The label is "Diabetes Present" iff p1 > p0, so a tie shows "No Diabetes Present". The percentage is 100·max(p0, p1). The stored value is p1. |
| Predictions.DecideOnDistribution | pages/predictions.py:313-320 | When p0 + p1 = 1, the percentage is between 50 and 100, and the label is positive iff the stored p1 > 0.5. |
| Predictions.ModelText | pages/predictions.py:320 | The shown sentence starts with "The model predicts: **" followed by the label. It ends with the rendering of the verdict's percentage, 100·max(p0, p1), followed by "% probability". |
| Predictions.ModelTextShowsLabel | pages/predictions.py:318-320 | The sentence has "Diabetes Present" right after the prefix iff p1 > p0. |
| PredictionStore.FindKey | pages/predictions.py:20-24 | The position of the first row keyed (user, date). None iff no row has that key. |
| PredictionStore.Upsert | pages/predictions.py:15-67 | If the key exists, the first such row gets the new values, keeps its id and date, and the size is unchanged. Otherwise one row with a fresh id and today's date is appended. A `None` user id never matches (SQL NULL), so it always appends. No other row changes, and "one row per user per day" is kept for saved user ids. |
| PredictionStore.UpsertStoresUnderKey | pages/predictions.py:26-67 | After a save under a user id the key has a row. Every row with the key holds the saved values. |
| PredictionStore.UpsertTwiceSameDay | pages/predictions.py:15-67 | Under a user id, two saves on one day leave exactly one row for that day, holding the second save's values, and no extra row. Without a user id, they append two rows, one per save. |
| PredictionStore.SavePrediction | pages/predictions.py:15-67 | The scan-then-update-or-insert procedure computes `Upsert`. |
| PredictionPage.Predict | pages/predictions.py:311-340 | The click shows the sentence that starts with the prefix and remembers it. The sentence shows "Diabetes Present" right after the prefix iff p1 > p0, the same rule as the saved label, and it is the sentence of `Decide(p0, p1)`. It reports Saved iff the save succeeds. A successful save leaves exactly `Upsert` of the previous table with the built vector, the label and p1, so every other row survives. Otherwise the store is unchanged. A table is computed iff 21 attribution values are given. |
| PredictionPage.PredictSavesToday | pages/predictions.py:318-321 | After a successful save under a user id, today's row for the user holds the encoded answer of every feature and probability p1. Its label is "Diabetes Present" iff p1 > p0. Without a user id, a new row holding the vector and p1 is appended. The table stays valid. |
| PredictionPage.PromptEmbedsShownVerdict | pages/predictions.py:320-353 | The recommendation prompt contains the sentence that was shown. It is built from the table computed for the 21 features. |
| UniqueIds.GenerateUniqueId | login.py:45-58 | It fails iff the name has no word. Otherwise the id is the lower-cased surname followed by a decimal counter ≥ 1, with no whitespace. |
| UniqueIds.CounterRule | login.py:53-57 | Counter 1 when no id starts with the stem, or when no remainder is a digit string. Otherwise 1 + the largest counter found. |
| UniqueIds.GeneratedIdIsFresh | login.py:49-58 | If the surname has a non-digit character, the id is not any id in use. |
| UniqueIds.AllDigitSurnameCollides | login.py:49-58 | For a name whose surname is "1", with "11" in use, the generator returns "11" again. |
| UniqueIds.Stem | login.py:49 | The stem is a non-empty word with no whitespace, as long as the surname, with digits exactly where the surname has them. |
| UniqueIds.Considered | login.py:50-51 | An id is considered iff it is in use and starts with the stem. |
| UniqueIds.StemOfAgentOne | login.py:49 | "Agent 1" is such a name: its stem is "1". |
| UniqueIds.Counters | login.py:56 | Every existing id whose remainder after deleting the stem is a digit string contributes that number, and every counter comes from such an id. |
| UniqueIds.MaxOrZero | login.py:57 | `max(ns, default=0)`: an upper bound of the list that is in the list, or 0 for an empty list. |
| Login.SaveUser | login.py:61-66 | The table is unchanged if the email or the id is taken. Otherwise exactly one row with these values is appended. Valid tables stay valid. |
| Login.UserExists | login.py:69-78 | A given id finds a row iff a row has that id. With an email, the lookup needs the same email and name. An absent name (SQL NULL) finds nothing. Neither argument given finds nothing. A found name is the name of a row that matched the lookup. |
| Login.Submit | login.py:92-138 | A logged-in session is unchanged. Every step that stays logged out leaves the state as it was. A consistent session stays consistent. An empty name or email shows "Please provide both name and email." and changes nothing. |
| Login.NameAndEmailAlwaysNewUser | login.py:98-121 | With both fields filled in, the new-user branch is always taken. It fails iff the name has no word. Otherwise the user is logged in under the generated id, and the table is `save_user`'s result. The session's `name` becomes the entered name, and its `user` is left as it was. |
| Login.UniqueIdLogin | login.py:124-138 | The session logs in iff the id is non-empty and a row carries it; otherwise an error is shown. On login the session's `user` is the name `user_exists` returns and its `name` is left as it was. The table never changes. |
| Login.RegisteredEmailGetsUnsavedId | login.py:103-119 | A second name/email login with a registered email logs in under a new id that the table does not hold. |
| Login.SubmitKeepsUsersValid | login.py:22-28 | Every step keeps row ids distinct, and emails and unique ids unique. |
| Attribution.Pair | utils.py:36-39 | The i-th row pairs the i-th name with the i-th value. |
| Attribution.SortByMagnitude | utils.py:41-44 | The result is a permutation of the input, in non-increasing absolute value. |
| Attribution.ExplainModel | utils.py:33-44 | Failure with the assertion message iff the lengths differ. Otherwise a permutation of the pairs, strongest first. |
| Attribution.ExplainModelPairs | utils.py:36-44 | Every row of the sorted table is some name with its own value, and every name appears with its value. |
| Attribution.Positive | utils.py:90 | Exactly the rows with a value > 0. |
| Attribution.Negative | utils.py:91 | Exactly the rows with a value < 0. |
| Attribution.GroupsPartition | utils.py:90-91 | The two groups and the zero rows together hold each row exactly as often as the table does. No row is in both groups. |
| Attribution.GroupsKeepOrder | utils.py:90-91 | Each group keeps the table's order: a table sorted by magnitude gives sorted groups, and groups distribute over concatenation. |
| Attribution.Prompt | utils.py:94-119 | The prompt contains the verdict sentence and both rendered groups. |
| Attribution.RecommendationPrompt | utils.py:89-105 | The prompt contains the sentence and the renderings of exactly the positive and negative groups. |
| Dashboard.MapValue | pages/dashboard.py:43-44 | The mapped label when the code is listed, otherwise "Unknown". |
| Dashboard.EducationDecodesEncoding | pages/dashboard.py:46-53 | Each answer decodes back from its code, and each code encodes back from its label. A code outside 1..6 shows "Unknown". |
| Dashboard.AgeRangeMapKeys | pages/dashboard.py:55-69 | The age map is defined for exactly 1..13. |
| Dashboard.AgeRangeMapRendersGroups | pages/dashboard.py:55-69 | Each age label is "lo-hi" (or "80+") for the ages of that group. |
| Dashboard.AgeLabelContainsAge | pages/dashboard.py:55-96 | For ages 0..120, the label shown for the age's group is that group's range, and the age lies in it. |
| Dashboard.IncomeMapKeys | pages/dashboard.py:175-179 | The income map is defined for exactly 1..8. |
| Dashboard.IncomeMapRendersGroups | pages/dashboard.py:175-179 | Each income label renders the dollar range between the prediction page's thresholds. |
| Dashboard.IncomeLabelContainsIncome | pages/dashboard.py:175-180 | The label shown for any income's group names a range that contains the income. |
| Dashboard.SelectionString | pages/dashboard.py:80-82 | Reading an "id - email" entry back never yields more than the id, whatever the email. |
| Dashboard.ParseSelection | pages/dashboard.py:82 | The parsed id is a prefix of the entry. |
| Dashboard.SelectionRoundTrip | pages/dashboard.py:80-82 | An id without a space is read back from "id - email", whatever the email. |
| Dashboard.SelectionCutsTrailingDash | pages/dashboard.py:80-82 | An id "a -" has no " - " but is read back as "a". |
| Dashboard.GeneratedIdSelection | pages/dashboard.py:80-82 | Every generated id is read back from its entry. |
| Dashboard.GenderLabel | pages/dashboard.py:129 | "Male" iff the code is 1, otherwise "Female". |
| Dashboard.GenderDecodesSex | pages/dashboard.py:129 | The gender shown is the sex answered on the form. |
| Dashboard.FeatureColumns | pages/dashboard.py:135 | A column is offered iff it is a column and not user_id, date, email, Sex, Age or Education. |
| Dashboard.FeatureColumnsKeepOrder | pages/dashboard.py:135 | Offered columns keep the table's column order. |
| Dashboard.DefaultSelection | pages/dashboard.py:139 | The preselection is the first min(5, n) offered features. |
| Dashboard.HealthySeries | pages/dashboard.py:150-152 | Exactly the readings with 18.5 ≤ BMI ≤ 25. |
| Dashboard.UnhealthySeries | pages/dashboard.py:150-153 | Exactly the readings outside 18.5..25. |
| Dashboard.BmiSeriesPartition | pages/dashboard.py:150-153 | Together the two series hold each reading exactly as often as the history does, and no reading is in both. |
| LegacyApp.LegacySchemaMatches | app.py:10-32 | The legacy page lists the same 21 features in the same order, and every example value is within 0..100. |
| LegacyApp.LegacyVector | app.py:39-45 | The vector has 21 whole values within 0..100, each the entered number. |
| LegacyApp.LegacyDecide | app.py:58-61 | "Diabetes Present" iff p1 > p0, otherwise "No Diabetes". The percentage is that of the shown label, i.e. the maximum. |
| LegacyApp.LegacyAgreesWithPredictionPage | app.py:58-61 | Both pages pick the same class with the same percentage. Only the wording of the negative label differs. |
| LegacyApp.LegacyMessage | app.py:59-61 | The sentence starts with "The model predicts: **" followed by the label. It ends with the rendering of the verdict's percentage followed by "% probability". |
| Seqs.FilterPartition | pages/dashboard.py:150-153 | A mask and its complement split a sequence with nothing lost or repeated. |
| Seqs.FilterKeepsOrder | utils.py:90-91 | Selecting rows never reorders them. |
| Text.WordsOfJoin | login.py:49 | Splitting text joined by whitespace splits each side on its own. |
| Text.DecimalRoundTrip | login.py:56-58 | Reading back a rendered counter gives the counter. |
| Text.RemoveAll | login.py:56 | `replace(pat, "")` never lengthens the text. It keeps only characters of the text. It keeps the length iff it changes nothing, iff `pat` does not occur, so every occurrence shortens the text. |
| Text.SplitHead | pages/dashboard.py:82 | `split(sep)[0]` is the text up to the first occurrence of sep, or all of it when sep does not occur. |
| Text.SplitHeadOfJoin | pages/dashboard.py:82 | `split(sep)[0]` recovers a first field that has no character equal to the separator's first. |

## Left out

- Loading the classifier and scaler, `scaler.transform` and `predict_proba`: the two class probabilities are inputs.
- The tree explainer computing attribution values: they are an input sequence.
- `load_api_key` and the language-model call: the prompt is modelled up to the point it is sent.
- `DataFrame.to_string` for the two groups: their rendering is a function parameter.
- The dashboard's e-mail sending (SMTP), all plotting, the HTML tiles and Streamlit widget rendering and reruns.
- Float formatting with two decimals: the rendering is a function parameter. The value it renders is the verdict's percentage.
- Database failures: any exception the save raises is caught, shown and otherwise ignored (pages/predictions.py:72-73). This is the `storeWritable` parameter of `PredictionPage.Predict`. One cause is a `predictions` table created by login.py:30-40, which has no `user_id` column.
- SQL `LIKE 'stem%'` is modelled as a case-sensitive prefix match. Its wildcard and case-insensitivity semantics are not modelled.
- The string-interpolated dashboard query (pages/dashboard.py:38) and its ORDER BY (pages/dashboard.py:39).
- The differing `predictions` schema that login.py:30-40 creates. Only the columns pages/predictions.py writes are modelled.
- `date.today()` is a parameter.
- `feature_info` is passed to `generate_recommendations` but never used there, so the model has no such argument.
- The dashboard's Prediction/Probability, MentHlth/PhysHlth and Income plots beyond the BMI split, which are plotting only.
- Character classes for `split()`, `lower()` and `isdigit()` are ASCII only: Unicode whitespace, letters and digits are not modelled.
- Predictions.Bmi: real division, not floating point; the 0/0 and NaN cases of the source are not modelled.
- Feature keys are an enumeration (`Predictions.Feature`), so `feature == "BMI"` is a test on the enumeration value. Distinct keys have distinct key texts (`Predictions.SchemaNames`).
- A demo profile is a total function (`Predictions.DemoValue`) from features to values. The source's dictionaries list every key, so the `.get` defaults are never used.
- UniqueIds.GeneratedIdIsFresh: freshness is proved for surnames with at least one non-digit character; `UniqueIds.AllDigitSurnameCollides` shows that all-digit surnames can collide.
- Dashboard.SelectionRoundTrip: proved for ids without a space, which is stronger than "no ' - '" (`Dashboard.SelectionCutsTrailingDash` shows why).
- Attribution.SortByMagnitude: pandas' sort is not stable; the contract fixes the order only up to ties, as the source does.

Where the program's own documentation and its code differ, the model follows the code:

- `generate_recommendations`' docstring (utils.py:84) describes the probability as that of the predicted class. The value pages/predictions.py:321 saves is p1, the diabetes probability, whichever label won.
- The prompt asks the language model to name features in full (utils.py:116), and `feature_info` is documented as the feature descriptions (utils.py:82). But the prompt embeds the contributions table as text (utils.py:102-105), so it holds the raw feature identifiers.

=== FILE: attribution.dfy ===
/** Post-processing of the per-feature attributions (utils.py): pairing
    feature names with their attribution values, ordering them by magnitude,
    splitting them into risk-raising and risk-lowering groups, and embedding
    the model's verdict in the recommendation prompt.

    The attribution values themselves come from a tree explainer; here they
    are an input sequence of reals. */
module Attribution {
  import opened Wrappers
  import opened Text
  import Seqs

  /** One row of the contributions table: a feature and its attribution value. */
  datatype Contribution = Contribution(feature: string, value: real)

  function Abs(x: real): (a: real)
    ensures a >= 0.0 && (a == x || a == -x)
  {
    if x < 0.0 then -x else x
  }

  const LengthMismatch := "Mismatch in feature and SHAP value lengths!"

  /** The table before sorting: the i-th name next to the i-th value. */
  function Pair(names: seq<string>, values: seq<real>): (cs: seq<Contribution>)
    requires |names| == |values|
    ensures |cs| == |names|
    ensures forall i :: 0 <= i < |cs| ==> cs[i].feature == names[i] && cs[i].value == values[i]
  {
    seq(|names|, i requires 0 <= i < |names| => Contribution(names[i], values[i]))
  }

  /** Non-increasing absolute value from front to back; ties in any order. */
  predicate SortedByMagnitude(cs: seq<Contribution>) {
    forall i, j :: 0 <= i < j < |cs| ==> Abs(cs[i].value) >= Abs(cs[j].value)
  }

  /** Putting a contribution at least as strong as the head of an ordered
      table in front of it keeps the table ordered. */
  lemma {:induction false} ConsSorted(x: Contribution, rest: seq<Contribution>)
    requires SortedByMagnitude(rest)
    requires |rest| == 0 || Abs(rest[0].value) <= Abs(x.value)
    ensures SortedByMagnitude([x] + rest)
  {
    var r := [x] + rest;
    forall i, j | 0 <= i < j < |r|
      ensures Abs(r[i].value) >= Abs(r[j].value)
    {
      assert r[j] == rest[j - 1];
      if i > 0 {
        assert r[i] == rest[i - 1];
      } else {
        assert Abs(rest[0].value) >= Abs(rest[j - 1].value);
      }
    }
  }

  /** Insert one contribution into a table already ordered by magnitude. */
  function Insert(c: Contribution, cs: seq<Contribution>): (r: seq<Contribution>)
    requires SortedByMagnitude(cs)
    ensures |r| == |cs| + 1
    ensures multiset(r) == multiset(cs) + multiset{c}
    ensures SortedByMagnitude(r)
    ensures r[0] == c || (|cs| > 0 && r[0] == cs[0])
  {
    if |cs| == 0 || Abs(c.value) >= Abs(cs[0].value) then
      ConsSorted(c, cs);
      [c] + cs
    else
      var rest := Insert(c, cs[1..]);
      assert cs == [cs[0]] + cs[1..];
      ConsSorted(cs[0], rest);
      [cs[0]] + rest
  }

  /** The table reordered by descending absolute value. */
  function SortByMagnitude(cs: seq<Contribution>): (r: seq<Contribution>)
    ensures |r| == |cs|
    ensures multiset(r) == multiset(cs)
    ensures SortedByMagnitude(r)
  {
    if |cs| == 0 then []
    else
      assert cs == [cs[0]] + cs[1..];
      Insert(cs[0], SortByMagnitude(cs[1..]))
  }

  /** `explain_model` after the explainer: a length mismatch between names and
      values is an assertion failure; otherwise the result holds exactly the
      (name, value) pairs, each name with its own value, strongest first. */
  function ExplainModel(names: seq<string>, values: seq<real>): (r: Result<seq<Contribution>, string>)
    ensures r.Failure? <==> |names| != |values|
    ensures r.Failure? ==> r.error == LengthMismatch
    ensures r.Success? ==>
      && |r.value| == |names|
      && multiset(r.value) == multiset(Pair(names, values))
      && SortedByMagnitude(r.value)
  {
    if |names| != |values| then Failure(LengthMismatch)
    else Success(SortByMagnitude(Pair(names, values)))
  }

  /** Every contribution of the sorted table is some feature paired with its
      own value, and every feature appears with its value. */
  lemma ExplainModelPairs(names: seq<string>, values: seq<real>)
    requires |names| == |values|
    ensures var cs := ExplainModel(names, values).value;
      && (forall c :: c in cs ==> exists i :: 0 <= i < |names| && c == Contribution(names[i], values[i]))
      && (forall i :: 0 <= i < |names| ==> Contribution(names[i], values[i]) in cs)
  {
    var ps := Pair(names, values);
    var cs := ExplainModel(names, values).value;
    forall c | c in cs
      ensures exists i :: 0 <= i < |names| && c == Contribution(names[i], values[i])
    {
      assert c in multiset(ps);
      var i :| 0 <= i < |ps| && ps[i] == c;
    }
    forall i | 0 <= i < |names|
      ensures Contribution(names[i], values[i]) in cs
    {
      assert ps[i] in multiset(cs);
    }
  }

  // ---------------------------------------------------------------------------
  // Raising and lowering groups

  predicate Raises(c: Contribution) { c.value > 0.0 }
  predicate Lowers(c: Contribution) { c.value < 0.0 }
  predicate IsNeutral(c: Contribution) { c.value == 0.0 }

  /** The rows with a positive value, in table order. */
  function Positive(cs: seq<Contribution>): (r: seq<Contribution>)
    ensures forall c :: c in r <==> c in cs && c.value > 0.0
  {
    Seqs.Filter(cs, Raises)
  }

  /** The rows with a negative value, in table order. */
  function Negative(cs: seq<Contribution>): (r: seq<Contribution>)
    ensures forall c :: c in r <==> c in cs && c.value < 0.0
  {
    Seqs.Filter(cs, Lowers)
  }

  /** The rows with value zero, which neither group shows. */
  function Neutral(cs: seq<Contribution>): (r: seq<Contribution>)
    ensures forall c :: c in r <==> c in cs && c.value == 0.0
  {
    Seqs.Filter(cs, IsNeutral)
  }

  /** The two groups and the zero rows split the table exactly: every row
      lands in one of the three, none in two, none lost or repeated. */
  lemma GroupsPartition(cs: seq<Contribution>)
    ensures multiset(Positive(cs)) + multiset(Negative(cs)) + multiset(Neutral(cs)) == multiset(cs)
    ensures forall c :: !(c in Positive(cs) && c in Negative(cs))
  {
    Seqs.FilterPartitionThree(cs, Raises, Lowers, IsNeutral);
  }

  /** Each group keeps the table's order: a table ordered by magnitude gives
      groups ordered by magnitude, and splitting a table in two splits each
      group in the same place. */
  lemma GroupsKeepOrder(cs: seq<Contribution>, a: seq<Contribution>, b: seq<Contribution>)
    requires cs == a + b
    ensures SortedByMagnitude(cs) ==> SortedByMagnitude(Positive(cs)) && SortedByMagnitude(Negative(cs))
    ensures Positive(cs) == Positive(a) + Positive(b)
    ensures Negative(cs) == Negative(a) + Negative(b)
  {
    if SortedByMagnitude(cs) {
      var R := (x: Contribution, y: Contribution) => Abs(x.value) >= Abs(y.value);
      Seqs.FilterKeepsOrder(cs, Raises, R);
      Seqs.FilterKeepsOrder(cs, Lowers, R);
    }
    Seqs.FilterConcat(a, b, Raises);
    Seqs.FilterConcat(a, b, Lowers);
  }

  // ---------------------------------------------------------------------------
  // The recommendation prompt

  const PromptIntro :=
    "\n    A patient's health indicators have been analyzed using SHAP (Shapley) values for diabetes risk prediction.\n\n    "
  const PromptRaising :=
    "\n\n    Here are the contributing factors:\n\n    - Features contributing to increased diabetes risk:\n    "
  const PromptLowering :=
    "\n\n    - Features contributing to reduced diabetes risk:\n    "
  const PromptInstructions :=
    "\n\n    Provide personalized lifestyle recommendations for this patient.\n"
    + "    Focus on:\n"
    + "    - Areas where they should improve their habits (based on positive SHAP values)\n"
    + "    - Areas where they are doing well (based on negative SHAP values)\n\n"
    + "    Respond as if you're talking to the patient directly. Avoid mentioning SHAP values or technical details.\n\n"
    + "    First mention the result and probability of the prediction (underlined and bolded). Then, provide clear and actionable recommendations.\n\n"
    + "    Don't start with \"Dear patient\" or similar formalities. Don't mention the feature names (e.g., \"HighBP\"), mention them in full (\"High blood pressure\").\n\n"
    + "    Break down your answer into bullet points for clarity. Make it easy to understand and actionable.\n    "

  /** The prompt text with the verdict sentence and the two rendered groups
      filled in, in that order. */
  function Prompt(modelText: string, raisingText: string, loweringText: string): (p: string)
    ensures Contains(p, modelText)
    ensures Contains(p, raisingText) && Contains(p, loweringText)
  {
    SlotsContained(PromptIntro, modelText, PromptRaising, raisingText, PromptLowering, loweringText,
                   PromptInstructions);
    PromptIntro + (modelText + (PromptRaising + (raisingText + (PromptLowering + (loweringText + PromptInstructions)))))
  }

  /** `generate_recommendations` up to the language-model call: the prompt
      built from the contributions table, with each group rendered by
      `render` (the table's plain-text rendering). The verdict sentence
      appears verbatim. */
  function RecommendationPrompt(cs: seq<Contribution>, modelText: string,
                                render: seq<Contribution> -> string): (p: string)
    ensures Contains(p, modelText)
    ensures Contains(p, render(Positive(cs))) && Contains(p, render(Negative(cs)))
  {
    Prompt(modelText, render(Positive(cs)), render(Negative(cs)))
  }
}

=== FILE: dashboard.dfy ===
/** The dashboard page's decoding of stored rows (pages/dashboard.py): the
    code-to-label maps and their "Unknown" default, the user selection
    string, the gender label, the list of plottable columns, and the split of
    BMI readings into a healthy and an unhealthy series.

    The maps are checked against the encoding in `Predictions`: a stored
    code decodes to the answer or range it was encoded from. */
module Dashboard {
  import opened Text
  import Seqs
  import Predictions
  import UniqueIds

  const Unknown := "Unknown"

  /** `map_value`, and `dict.get(key, "Unknown")`: the label of a code, or
      "Unknown" for a code the map does not list. */
  function MapValue(key: int, m: map<int, string>): (shown: string)
    ensures key in m ==> shown == m[key]
    ensures key !in m ==> shown == Unknown
  {
    if key in m then m[key] else Unknown
  }

  // ---------------------------------------------------------------------------
  // Education

  /** The dashboard's own education labels by code. They are written out
      separately from the prediction page's options; the lemma below checks
      that the two agree. */
  const EducationMap: map<int, string> := map[
    1 := "Never attended school or only kindergarten",
    2 := "Grades 1 through 8 (Elementary)",
    3 := "Grades 9 through 11 (Some high school)",
    4 := "Grade 12 or GED (High school graduate)",
    5 := "College 1 year to 3 years (Some college or technical school)",
    6 := "College 4 years or more (College graduate)"
  ]

  /** The dashboard's education labels invert the prediction page's codes:
      every answer decodes back from its code, every listed code encodes back
      from its label, and a code outside 1..6 shows "Unknown". */
  lemma EducationDecodesEncoding(answer: string, code: int)
    ensures answer in Predictions.EducationOptions ==>
      MapValue(Predictions.EducationCode(answer), EducationMap) == answer
    ensures code in EducationMap ==>
      EducationMap[code] in Predictions.EducationOptions &&
      Predictions.EducationCode(EducationMap[code]) == code
    ensures MapValue(code, EducationMap) == Unknown <==> !(1 <= code <= 6)
  {
  }

  // ---------------------------------------------------------------------------
  // Ranges shown for age and income groups

  /** A range of whole numbers as a label describes it. */
  datatype Range = Below(bound: int) | Between(lo: int, hi: int) | AtLeast(lo: int)

  predicate InRange(x: int, r: Range) {
    match r
    case Below(bound) => x < bound
    case Between(lo, hi) => lo <= x <= hi
    case AtLeast(lo) => lo <= x
  }

  const AgeRangeMap: map<int, string> := map[
    1 := "0-24", 2 := "25-29", 3 := "30-34", 4 := "35-39", 5 := "40-44",
    6 := "45-49", 7 := "50-54", 8 := "55-59", 9 := "60-64", 10 := "65-69",
    11 := "70-74", 12 := "75-79", 13 := "80+"
  ]

  /** The ages of an age group, starting from age 0. */
  function AgeGroupRange(group: int): (r: Range)
    requires 1 <= group <= 13
    ensures r.Between? || r.AtLeast?
  {
    if group == 1 then Between(0, 24)
    else if group == 13 then AtLeast(80)
    else Between(5 * group + 15, 5 * group + 19)
  }

  /** "lo-hi", or "lo+" for an open range. */
  function AgeLabel(r: Range): string
    requires r.Between? || r.AtLeast?
    requires r.lo >= 0 && (r.Between? ==> r.hi >= 0)
  {
    match r
    case Between(lo, hi) => DecimalString(lo) + "-" + DecimalString(hi)
    case AtLeast(lo) => DecimalString(lo) + "+"
  }

  /** A two-digit number is written as its tens digit and its units digit. */
  lemma TwoDigits(n: int)
    requires 10 <= n < 100
    ensures DecimalString(n) == [DigitChar(n / 10), DigitChar(n % 10)]
  {
  }

  /** The age map lists exactly the 13 groups. */
  lemma AgeRangeMapKeys()
    ensures forall g :: g in AgeRangeMap <==> 1 <= g <= 13
  {
  }

  /** Each label of the age map is the rendering of that group's range. */
  lemma AgeRangeMapRendersGroups(g: int)
    requires 1 <= g <= 13
    ensures g in AgeRangeMap && AgeRangeMap[g] == AgeLabel(AgeGroupRange(g))
  {
    match g
    case 1 => AgeGroupLabel1();
    case 2 => AgeGroupLabel2();
    case 3 => AgeGroupLabel3();
    case 4 => AgeGroupLabel4();
    case 5 => AgeGroupLabel5();
    case 6 => AgeGroupLabel6();
    case 7 => AgeGroupLabel7();
    case 8 => AgeGroupLabel8();
    case 9 => AgeGroupLabel9();
    case 10 => AgeGroupLabel10();
    case 11 => AgeGroupLabel11();
    case 12 => AgeGroupLabel12();
    case 13 => AgeGroupLabel13();
  }

  lemma AgeGroupLabel1()
    ensures AgeRangeMap[1] == AgeLabel(AgeGroupRange(1))
  {
    assert DecimalString(0) == "0";
    assert DecimalString(24) == "24" by { TwoDigits(24); }
    assert AgeRangeMap[1] == "0" + "-" + "24";
  }

  lemma AgeGroupLabel2()
    ensures AgeRangeMap[2] == AgeLabel(AgeGroupRange(2))
  {
    assert DecimalString(25) == "25" by { TwoDigits(25); }
    assert DecimalString(29) == "29" by { TwoDigits(29); }
    assert AgeRangeMap[2] == "25" + "-" + "29";
  }

  lemma AgeGroupLabel3()
    ensures AgeRangeMap[3] == AgeLabel(AgeGroupRange(3))
  {
    assert DecimalString(30) == "30" by { TwoDigits(30); }
    assert DecimalString(34) == "34" by { TwoDigits(34); }
    assert AgeRangeMap[3] == "30" + "-" + "34";
  }

  lemma AgeGroupLabel4()
    ensures AgeRangeMap[4] == AgeLabel(AgeGroupRange(4))
  {
    assert DecimalString(35) == "35" by { TwoDigits(35); }
    assert DecimalString(39) == "39" by { TwoDigits(39); }
    assert AgeRangeMap[4] == "35" + "-" + "39";
  }

  lemma AgeGroupLabel5()
    ensures AgeRangeMap[5] == AgeLabel(AgeGroupRange(5))
  {
    assert DecimalString(40) == "40" by { TwoDigits(40); }
    assert DecimalString(44) == "44" by { TwoDigits(44); }
    assert AgeRangeMap[5] == "40" + "-" + "44";
  }

  lemma AgeGroupLabel6()
    ensures AgeRangeMap[6] == AgeLabel(AgeGroupRange(6))
  {
    assert DecimalString(45) == "45" by { TwoDigits(45); }
    assert DecimalString(49) == "49" by { TwoDigits(49); }
    assert AgeRangeMap[6] == "45" + "-" + "49";
  }

  lemma AgeGroupLabel7()
    ensures AgeRangeMap[7] == AgeLabel(AgeGroupRange(7))
  {
    assert DecimalString(50) == "50" by { TwoDigits(50); }
    assert DecimalString(54) == "54" by { TwoDigits(54); }
    assert AgeRangeMap[7] == "50" + "-" + "54";
  }

  lemma AgeGroupLabel8()
    ensures AgeRangeMap[8] == AgeLabel(AgeGroupRange(8))
  {
    assert DecimalString(55) == "55" by { TwoDigits(55); }
    assert DecimalString(59) == "59" by { TwoDigits(59); }
    assert AgeRangeMap[8] == "55" + "-" + "59";
  }

  lemma AgeGroupLabel9()
    ensures AgeRangeMap[9] == AgeLabel(AgeGroupRange(9))
  {
    assert DecimalString(60) == "60" by { TwoDigits(60); }
    assert DecimalString(64) == "64" by { TwoDigits(64); }
    assert AgeRangeMap[9] == "60" + "-" + "64";
  }

  lemma AgeGroupLabel10()
    ensures AgeRangeMap[10] == AgeLabel(AgeGroupRange(10))
  {
    assert DecimalString(65) == "65" by { TwoDigits(65); }
    assert DecimalString(69) == "69" by { TwoDigits(69); }
    assert AgeRangeMap[10] == "65" + "-" + "69";
  }

  lemma AgeGroupLabel11()
    ensures AgeRangeMap[11] == AgeLabel(AgeGroupRange(11))
  {
    assert DecimalString(70) == "70" by { TwoDigits(70); }
    assert DecimalString(74) == "74" by { TwoDigits(74); }
    assert AgeRangeMap[11] == "70" + "-" + "74";
  }

  lemma AgeGroupLabel12()
    ensures AgeRangeMap[12] == AgeLabel(AgeGroupRange(12))
  {
    assert DecimalString(75) == "75" by { TwoDigits(75); }
    assert DecimalString(79) == "79" by { TwoDigits(79); }
    assert AgeRangeMap[12] == "75" + "-" + "79";
  }

  lemma AgeGroupLabel13()
    ensures AgeRangeMap[13] == AgeLabel(AgeGroupRange(13))
  {
    assert DecimalString(80) == "80" by { TwoDigits(80); }
    assert AgeRangeMap[13] == "80" + "+";
  }

  /** For every age the form accepts, the dashboard shows, for the stored age
      group, a range label and the age lies in that range. */
  lemma AgeLabelContainsAge(age: int)
    requires 0 <= age <= 120
    ensures var g := Predictions.AgeBracket(age);
      && MapValue(g, AgeRangeMap) == AgeLabel(AgeGroupRange(g))
      && InRange(age, AgeGroupRange(g))
  {
    AgeRangeMapRendersGroups(Predictions.AgeBracket(age));
  }

  const IncomeMap: map<int, string> := map[
    1 := "Less than $10,000", 2 := "$10,000 - $14,999", 3 := "$15,000 - $19,999",
    4 := "$20,000 - $24,999", 5 := "$25,000 - $34,999", 6 := "$35,000 - $49,999",
    7 := "$50,000 - $74,999", 8 := "$75,000 and above"
  ]

  /** The dollar amounts of an income group, read off the thresholds the
      prediction page brackets with. */
  function IncomeGroupRange(group: int): (r: Range)
    requires 1 <= group <= 8
    ensures Renderable(r)
  {
    var ts := Predictions.IncomeThresholds;
    if group == 1 then Below(ts[0])
    else if group == 8 then AtLeast(ts[6])
    else Between(ts[group - 2], ts[group - 1] - 1)
  }

  /** Three decimal digits, with leading zeros. */
  function ThreeDigits(n: nat): (s: string)
    requires n < 1000
    ensures |s| == 3 && DigitsOnly(s)
  {
    [DigitChar(n / 100), DigitChar(n / 10 % 10), DigitChar(n % 10)]
  }

  /** A dollar amount below one million with a thousands comma: "$15,000". */
  function Dollars(n: nat): string
    requires n < 1000000
  {
    if n < 1000 then "$" + DecimalString(n)
    else "$" + DecimalString(n / 1000) + "," + ThreeDigits(n % 1000)
  }

  /** Every bound of the range can be written as a dollar amount. */
  predicate Renderable(r: Range) {
    match r
    case Below(b) => 0 <= b < 1000000
    case Between(lo, hi) => 0 <= lo < 1000000 && 0 <= hi < 1000000
    case AtLeast(lo) => 0 <= lo < 1000000
  }

  /** "Less than $b", "$lo - $hi" or "$lo and above". */
  function IncomeLabel(r: Range): string
    requires Renderable(r)
  {
    match r
    case Below(b) => "Less than " + Dollars(b)
    case Between(lo, hi) => Dollars(lo) + " - " + Dollars(hi)
    case AtLeast(lo) => Dollars(lo) + " and above"
  }

  /** A whole number of thousands between 10 and 99: "$ab,000". */
  lemma {:induction false} RoundDollars(k: int)
    requires 10 <= k < 100
    ensures Dollars(1000 * k) == ['$', DigitChar(k / 10), DigitChar(k % 10), ',', '0', '0', '0']
  {
    assert (1000 * k) / 1000 == k && (1000 * k) % 1000 == 0;
    assert DecimalString(k) == [DigitChar(k / 10), DigitChar(k % 10)];
  }

  /** One dollar short of the next thousand: "$ab,999". */
  lemma {:induction false} TopDollars(k: int)
    requires 10 <= k < 100
    ensures Dollars(1000 * k + 999) == ['$', DigitChar(k / 10), DigitChar(k % 10), ',', '9', '9', '9']
  {
    assert (1000 * k + 999) / 1000 == k && (1000 * k + 999) % 1000 == 999;
    assert DecimalString(k) == [DigitChar(k / 10), DigitChar(k % 10)];
  }

  /** The income map lists exactly the 8 groups. */
  lemma IncomeMapKeys()
    ensures forall g :: g in IncomeMap <==> 1 <= g <= 8
  {
  }

  /** Each label of the income map renders the range between the
      prediction page's thresholds. */
  lemma IncomeMapRendersGroups(g: int)
    requires 1 <= g <= 8
    ensures g in IncomeMap && IncomeMap[g] == IncomeLabel(IncomeGroupRange(g))
  {
    match g
    case 1 => IncomeGroupLabel1();
    case 2 => IncomeGroupLabel2();
    case 3 => IncomeGroupLabel3();
    case 4 => IncomeGroupLabel4();
    case 5 => IncomeGroupLabel5();
    case 6 => IncomeGroupLabel6();
    case 7 => IncomeGroupLabel7();
    case 8 => IncomeGroupLabel8();
  }

  lemma IncomeGroupLabel1()
    ensures IncomeMap[1] == IncomeLabel(IncomeGroupRange(1))
  {
    assert Dollars(10000) == "$10,000" by { RoundDollars(10); }
    assert IncomeMap[1] == "Less than " + "$10,000";
  }

  lemma IncomeGroupLabel2()
    ensures IncomeMap[2] == IncomeLabel(IncomeGroupRange(2))
  {
    assert Dollars(10000) == "$10,000" by { RoundDollars(10); }
    assert Dollars(14999) == "$14,999" by { TopDollars(14); }
    assert IncomeMap[2] == "$10,000" + " - " + "$14,999";
  }

  lemma IncomeGroupLabel3()
    ensures IncomeMap[3] == IncomeLabel(IncomeGroupRange(3))
  {
    assert Dollars(15000) == "$15,000" by { RoundDollars(15); }
    assert Dollars(19999) == "$19,999" by { TopDollars(19); }
    assert IncomeMap[3] == "$15,000" + " - " + "$19,999";
  }

  lemma IncomeGroupLabel4()
    ensures IncomeMap[4] == IncomeLabel(IncomeGroupRange(4))
  {
    assert Dollars(20000) == "$20,000" by { RoundDollars(20); }
    assert Dollars(24999) == "$24,999" by { TopDollars(24); }
    assert IncomeMap[4] == "$20,000" + " - " + "$24,999";
  }

  lemma IncomeGroupLabel5()
    ensures IncomeMap[5] == IncomeLabel(IncomeGroupRange(5))
  {
    assert Dollars(25000) == "$25,000" by { RoundDollars(25); }
    assert Dollars(34999) == "$34,999" by { TopDollars(34); }
    assert IncomeMap[5] == "$25,000" + " - " + "$34,999";
  }

  lemma IncomeGroupLabel6()
    ensures IncomeMap[6] == IncomeLabel(IncomeGroupRange(6))
  {
    assert Dollars(35000) == "$35,000" by { RoundDollars(35); }
    assert Dollars(49999) == "$49,999" by { TopDollars(49); }
    assert IncomeMap[6] == "$35,000" + " - " + "$49,999";
  }

  lemma IncomeGroupLabel7()
    ensures IncomeMap[7] == IncomeLabel(IncomeGroupRange(7))
  {
    assert Dollars(50000) == "$50,000" by { RoundDollars(50); }
    assert Dollars(74999) == "$74,999" by { TopDollars(74); }
    assert IncomeMap[7] == "$50,000" + " - " + "$74,999";
  }

  lemma IncomeGroupLabel8()
    ensures IncomeMap[8] == IncomeLabel(IncomeGroupRange(8))
  {
    assert Dollars(75000) == "$75,000" by { RoundDollars(75); }
    assert IncomeMap[8] == "$75,000" + " and above";
  }

  /** Every income in dollars lies in the range the dashboard shows for its
      stored income group. */
  lemma IncomeLabelContainsIncome(income: int)
    ensures var g := Predictions.IncomeBracket(income);
      && MapValue(g, IncomeMap) == IncomeLabel(IncomeGroupRange(g))
      && InRange(income, IncomeGroupRange(g))
  {
    IncomeMapRendersGroups(Predictions.IncomeBracket(income));
  }

  // ---------------------------------------------------------------------------
  // User selection

  const SelectionSeparator := " - "

  /** The entry a user is listed under: "id - email". Whatever the id and
      the email, reading the entry back never yields more than the id. */
  function SelectionString(id: string, email: string): (entry: string)
    ensures ParseSelection(entry) <= id
  {
    var entry := id + SelectionSeparator + email;
    assert entry[|id|..] == SelectionSeparator + email;
    entry
  }

  /** `selection.split(' - ')[0]`. */
  function ParseSelection(selection: string): (id: string)
    ensures id <= selection
  {
    SplitHead(selection, SelectionSeparator)
  }

  /** An id without a space is read back from its entry, whatever the email. */
  lemma SelectionRoundTrip(id: string, email: string)
    requires forall i :: 0 <= i < |id| ==> id[i] != ' '
    ensures ParseSelection(SelectionString(id, email)) == id
  {
    SplitHeadOfJoin(id, SelectionSeparator, email);
  }

  /** Not containing " - " is not enough: the id "a -" is listed as
      "a - - e" and read back as "a". */
  lemma SelectionCutsTrailingDash()
    ensures !Contains("a -", SelectionSeparator)
    ensures ParseSelection(SelectionString("a -", "e")) == "a"
  {
    assert SelectionString("a -", "e") == "a" + SelectionSeparator + "- e";
    SplitHeadOfJoin("a", SelectionSeparator, "- e");
  }

  /** Every id the login page generates is read back from its entry. */
  lemma GeneratedIdSelection(name: string, existing: seq<string>, email: string)
    requires !AllWhitespace(name)
    ensures var id := UniqueIds.GenerateUniqueId(name, existing).value;
      ParseSelection(SelectionString(id, email)) == id
  {
    var id := UniqueIds.GenerateUniqueId(name, existing).value;
    SelectionRoundTrip(id, email);
  }

  // ---------------------------------------------------------------------------
  // Gender

  /** 'Male' for the stored code 1, 'Female' for anything else. */
  function GenderLabel(sex: int): (shown: string)
    ensures shown == "Male" <==> sex == 1
    ensures shown == "Male" || shown == "Female"
  {
    if sex == 1 then "Male" else "Female"
  }

  /** The gender shown is the sex answered on the prediction form. */
  lemma GenderDecodesSex(answer: string)
    requires answer in Predictions.SexLabels
    ensures GenderLabel(Predictions.SexCode(answer)) == answer
  {
  }

  // ---------------------------------------------------------------------------
  // Plottable columns

  const NotPlotted: seq<string> := ["user_id", "date", "email", "Sex", "Age", "Education"]

  predicate Plotted(column: string) {
    column !in NotPlotted
  }

  /** The columns offered for plotting: all of the user's columns but the
      key, date and demographic ones, in column order. */
  function FeatureColumns(columns: seq<string>): (fs: seq<string>)
    ensures forall c :: c in fs <==> c in columns && c !in NotPlotted
    ensures |fs| <= |columns|
  {
    Seqs.Filter(columns, Plotted)
  }

  /** Column order is kept: splitting the columns splits the offered list
      at the same place. */
  lemma FeatureColumnsKeepOrder(a: seq<string>, b: seq<string>)
    ensures FeatureColumns(a + b) == FeatureColumns(a) + FeatureColumns(b)
  {
    Seqs.FilterConcat(a, b, Plotted);
  }

  /** The preselected features: the first five offered, or all if fewer. */
  function DefaultSelection(fs: seq<string>): (sel: seq<string>)
    ensures sel <= fs
    ensures |sel| == if |fs| < 5 then |fs| else 5
  {
    if |fs| < 5 then fs else fs[..5]
  }

  // ---------------------------------------------------------------------------
  // BMI series

  /** One BMI reading of the user's history. */
  datatype Reading = Reading(date: string, bmi: real)

  predicate Healthy(r: Reading) {
    18.5 <= r.bmi <= 25.0
  }

  predicate NotHealthy(r: Reading) {
    !Healthy(r)
  }

  /** The readings drawn as the green series. */
  function HealthySeries(rs: seq<Reading>): (h: seq<Reading>)
    ensures forall r :: r in h <==> r in rs && 18.5 <= r.bmi <= 25.0
  {
    Seqs.Filter(rs, Healthy)
  }

  /** The readings drawn as the red series. */
  function UnhealthySeries(rs: seq<Reading>): (u: seq<Reading>)
    ensures forall r :: r in u <==> r in rs && (r.bmi < 18.5 || r.bmi > 25.0)
  {
    Seqs.Filter(rs, NotHealthy)
  }

  /** Every reading is drawn in exactly one of the two series: together they
      hold each reading as often as the history does, and no reading is in both. */
  lemma BmiSeriesPartition(rs: seq<Reading>)
    ensures multiset(HealthySeries(rs)) + multiset(UnhealthySeries(rs)) == multiset(rs)
    ensures forall r :: !(r in HealthySeries(rs) && r in UnhealthySeries(rs))
  {
    Seqs.FilterPartition(rs, Healthy, NotHealthy);
  }
}

=== FILE: legacy_app.dfy ===
/** The original single-page predictor (app.py): 21 number inputs in the
    schema's order, each between 0 and 100, and a label rule that shows
    "Diabetes Present" or "No Diabetes" with the probability of the label shown. */
module LegacyApp {
  import Predictions

  /** The schema's features with their example values, in declaration order. */
  const LegacyFeatures: seq<(string, int)> := [
    ("HighBP", 1), ("HighChol", 1), ("CholCheck", 1), ("BMI", 28), ("Smoker", 0), ("Stroke", 0),
    ("HeartDiseaseorAttack", 0), ("PhysActivity", 1), ("Fruits", 1), ("Veggies", 1),
    ("HvyAlcoholConsump", 0), ("AnyHealthcare", 1), ("NoDocbcCost", 0), ("GenHlth", 3),
    ("MentHlth", 5), ("PhysHlth", 5), ("DiffWalk", 0), ("Sex", 1), ("Age", 8),
    ("Education", 4), ("Income", 6)
  ]

  const InputMin := 0
  const InputMax := 100

  /** The legacy schema lists the same features in the same order as the
      prediction page, and every example value is one its input accepts. */
  lemma LegacySchemaMatches()
    ensures |LegacyFeatures| == Predictions.FeatureCount
    ensures forall i :: 0 <= i < |LegacyFeatures| ==>
      LegacyFeatures[i].0 == Predictions.FeatureNames[i] &&
      InputMin <= LegacyFeatures[i].1 <= InputMax
  {
  }

  /** The vector handed to the scaler: the 21 entered numbers, in schema
      order, each within the inputs' bounds. */
  function LegacyVector(entries: seq<int>): (v: seq<real>)
    requires |entries| == |LegacyFeatures|
    requires forall i :: 0 <= i < |entries| ==> InputMin <= entries[i] <= InputMax
    ensures |v| == Predictions.FeatureCount
    ensures forall i :: 0 <= i < |v| ==> Predictions.IsCode(v[i], InputMin, InputMax) && v[i].Floor == entries[i]
  {
    seq(|entries|, i requires 0 <= i < |entries| => entries[i] as real)
  }

  const LegacyPresent := "Diabetes Present"
  const LegacyAbsent := "No Diabetes"

  datatype LegacyVerdict = LegacyVerdict(outcome: string, percent: real)

  /** The label from the class probabilities `p0` (no diabetes) and `p1`
      (diabetes): "Diabetes Present" only when `p1` is strictly larger, and
      the percentage of whichever class is shown. */
  function LegacyDecide(p0: real, p1: real): (v: LegacyVerdict)
    ensures v.outcome == LegacyPresent <==> p1 > p0
    ensures v.outcome == LegacyPresent || v.outcome == LegacyAbsent
    ensures v.percent == 100.0 * (if v.outcome == LegacyPresent then p1 else p0)
    ensures v.percent >= 100.0 * p0 && v.percent >= 100.0 * p1
  {
    if p1 > p0 then LegacyVerdict(LegacyPresent, p1 * 100.0)
    else LegacyVerdict(LegacyAbsent, p0 * 100.0)
  }

  /** The legacy page and the prediction page decide alike: the same class
      wins on the same probabilities, with the same percentage; only the
      wording of the negative label differs. */
  lemma LegacyAgreesWithPredictionPage(p0: real, p1: real)
    ensures (LegacyDecide(p0, p1).outcome == LegacyPresent) <==>
            (Predictions.Decide(p0, p1).outcome == Predictions.DiabetesPresent)
    ensures LegacyDecide(p0, p1).percent == Predictions.Decide(p0, p1).percent
    ensures LegacyAbsent != Predictions.NoDiabetesPresent
  {
  }

  /** The sentence the legacy page shows: the label, then the verdict's
      percentage as `render` writes it (two decimals in the source). */
  function LegacyMessage(v: LegacyVerdict, render: real -> string): (m: string)
    ensures Predictions.ModelTextPrefix <= m
    ensures v.outcome <= m[|Predictions.ModelTextPrefix|..]
    ensures var tail := render(v.percent) + Predictions.PercentSuffix;
      |tail| <= |m| && m[|m| - |tail|..] == tail
  {
    Predictions.ModelTextPrefix + v.outcome + "** with " + render(v.percent) + Predictions.PercentSuffix
  }
}

=== FILE: login.dfy ===
/** The login page (login.py): the `users` table, the insert-or-ignore save,
    the `user_exists` lookup, and the session flags the login form sets.

    A session starts logged out. Logging in by name and email always
    registers a new id, because the lookup for an existing user compares the
    name column with SQL NULL, which matches no row. Logging in by unique id
    succeeds exactly when a row carries that id. */
module Login {
  import opened Wrappers
  import opened Text
  import UniqueIds

  datatype UserRow = UserRow(rowId: nat, name: string, email: string, uniqueId: string)

  /** The rows in row-id order, and the next row id the table hands out. */
  datatype UserTable = UserTable(rows: seq<UserRow>, nextRowId: nat)

  const EmptyUsers := UserTable([], 1)

  predicate EmailTaken(t: UserTable, email: string) {
    exists i :: 0 <= i < |t.rows| && t.rows[i].email == email
  }

  predicate UniqueIdTaken(t: UserTable, uniqueId: string) {
    exists i :: 0 <= i < |t.rows| && t.rows[i].uniqueId == uniqueId
  }

  /** The table's declared constraints: row ids are distinct and below the
      next one, and `email` and `unique_id` are each UNIQUE. */
  predicate Valid(t: UserTable) {
    && (forall i :: 0 <= i < |t.rows| ==> t.rows[i].rowId < t.nextRowId)
    && (forall i, j :: 0 <= i < j < |t.rows| ==>
          && t.rows[i].rowId != t.rows[j].rowId
          && t.rows[i].email != t.rows[j].email
          && t.rows[i].uniqueId != t.rows[j].uniqueId)
  }

  /** Every unique id in use, in row order: what the id generator searches. */
  function UniqueIdsInUse(t: UserTable): (ids: seq<string>)
    ensures |ids| == |t.rows|
    ensures forall i :: 0 <= i < |t.rows| ==> ids[i] == t.rows[i].uniqueId
  {
    seq(|t.rows|, i requires 0 <= i < |t.rows| => t.rows[i].uniqueId)
  }

  /** `save_user`: insert a row, unless the email or the unique id is already
      present, in which case the table is unchanged. */
  function SaveUser(t: UserTable, name: string, email: string, uniqueId: string): (t': UserTable)
    ensures EmailTaken(t, email) || UniqueIdTaken(t, uniqueId) ==> t' == t
    ensures !EmailTaken(t, email) && !UniqueIdTaken(t, uniqueId) ==>
      && |t'.rows| == |t.rows| + 1
      && t'.rows[..|t.rows|] == t.rows
      && t'.rows[|t.rows|].name == name
      && t'.rows[|t.rows|].email == email
      && t'.rows[|t.rows|].uniqueId == uniqueId
    ensures Valid(t) ==> Valid(t')
    ensures (EmailTaken(t', email) && UniqueIdTaken(t', uniqueId)) || t' == t
  {
    if EmailTaken(t, email) || UniqueIdTaken(t, uniqueId) then t
    else
      var t' := UserTable(t.rows + [UserRow(t.nextRowId, name, email, uniqueId)], t.nextRowId + 1);
      assert t'.rows[|t.rows|].email == email;
      t'
  }

  /** The first row that `matches` (a `SELECT ... WHERE` followed by `fetchone`). */
  function FindFirst(rows: seq<UserRow>, matches: UserRow -> bool): (r: Option<UserRow>)
    ensures r.Some? ==> r.value in rows && matches(r.value)
    ensures r.None? <==> forall i :: 0 <= i < |rows| ==> !matches(rows[i])
  {
    if |rows| == 0 then None
    else if matches(rows[0]) then Some(rows[0])
    else FindFirst(rows[1..], matches)
  }

  /** Python truthiness of an optional string argument: present and non-empty. */
  predicate Given(s: Option<string>) {
    s.Some? && s.value != ""
  }

  /** `user_exists(unique_id, email, name)`: the name of a matching user,
      read from the row that matched.
      A given unique id is looked up alone. Otherwise a given email is looked
      up together with the name, and an absent name is SQL NULL, which equals
      nothing. With neither given the lookup answers nothing. */
  function UserExists(t: UserTable, uniqueId: Option<string>, email: Option<string>,
                      name: Option<string>): (r: Option<string>)
    ensures Given(uniqueId) ==> (r.Some? <==> UniqueIdTaken(t, uniqueId.value))
    ensures !Given(uniqueId) && Given(email) && name.Some? ==>
      (r.Some? <==> exists i :: 0 <= i < |t.rows| && t.rows[i].email == email.value && t.rows[i].name == name.value)
    ensures !Given(uniqueId) && name.None? ==> r.None?
    ensures !Given(uniqueId) && !Given(email) ==> r.None?
    ensures r.Some? ==>
      exists i :: (0 <= i < |t.rows| && t.rows[i].name == r.value &&
                   (Given(uniqueId) ==> t.rows[i].uniqueId == uniqueId.value) &&
                   (!Given(uniqueId) ==> email.Some? && t.rows[i].email == email.value &&
                                         name == Some(t.rows[i].name)))
  {
    if Given(uniqueId) then
      match FindFirst(t.rows, (row: UserRow) => row.uniqueId == uniqueId.value)
      case Some(row) => Some(row.name)
      case None => None
    else if Given(email) then
      match name
      case None => None
      case Some(n) =>
        match FindFirst(t.rows, (row: UserRow) => row.email == email.value && row.name == n)
        case Some(row) => Some(row.name)
        case None => None
    else None
  }

  // ---------------------------------------------------------------------------
  // Session and login form

  datatype LoginMethod = ExistingUser | NewUser

  /** The session flags the login page keeps. */
  datatype Session = Session(
    loggedIn: bool,
    userId: Option<string>,
    loginMethod: Option<LoginMethod>,
    user: Option<string>,
    name: Option<string>)

  const LoggedOut := Session(false, None, None, None, None)

  /** A logged-in session knows its user id and how it logged in. */
  predicate Consistent(s: Session) {
    s.loggedIn ==> s.userId.Some? && s.loginMethod.Some?
  }

  /** What the user submits: a name and an email, or a unique id. */
  datatype Submission = NameAndEmail(name: string, email: string) | ByUniqueId(uniqueId: string)

  /** An error shown under the form, or a rerun of the page after a login. */
  datatype Notice = ShowError(message: string) | Rerun | NoNotice

  datatype LoginState = LoginState(session: Session, users: UserTable)

  datatype Step = Step(state: LoginState, notice: Notice)

  /** A blank-looking name (only whitespace) makes the id generator raise. */
  datatype LoginError = BlankName | NoRowForEmail

  const MissingNameOrEmail := "Please provide both name and email."
  const MissingUniqueId := "Please provide your unique ID."
  const UnknownUniqueId := "Unique ID not found. Please log in with your name and email."

  /** One press of "Submit" on the login form. A logged-in session has no
      form, so nothing changes. */
  function Submit(st: LoginState, sub: Submission): (r: Result<Step, LoginError>)
    ensures st.session.loggedIn ==> r == Success(Step(st, NoNotice))
    ensures r.Success? && Consistent(st.session) ==> Consistent(r.value.state.session)
    ensures r.Success? && !r.value.state.session.loggedIn ==> r.value.state == st
    ensures !st.session.loggedIn && sub.NameAndEmail? && (sub.name == "" || sub.email == "") ==>
      r == Success(Step(st, ShowError(MissingNameOrEmail)))
  {
    if st.session.loggedIn then Success(Step(st, NoNotice))
    else
      match sub
      case NameAndEmail(name, email) =>
        if name != "" && email != "" then
          match UserExists(st.users, None, Some(email), None)
          case Some(user) =>
            // the lookup above never finds a row; this is the branch it guards
            (match FindFirst(st.users.rows, (row: UserRow) => row.email == email)
             case None => Failure(NoRowForEmail)
             case Some(row) =>
               var session := Session(true, Some(row.uniqueId), Some(ExistingUser), Some(user), Some(name));
               Success(Step(LoginState(session, st.users), Rerun)))
          case None =>
            match UniqueIds.GenerateUniqueId(name, UniqueIdsInUse(st.users))
            case Failure(_) => Failure(BlankName)
            case Success(uniqueId) =>
              var users := SaveUser(st.users, name, email, uniqueId);
              var session := st.session.(loggedIn := true, userId := Some(uniqueId),
                                         loginMethod := Some(NewUser), name := Some(name));
              Success(Step(LoginState(session, users), Rerun))
        else Success(Step(st, ShowError(MissingNameOrEmail)))
      case ByUniqueId(uniqueId) =>
        if uniqueId != "" then
          match UserExists(st.users, Some(uniqueId), None, None)
          case Some(user) =>
            var session := st.session.(loggedIn := true, userId := Some(uniqueId),
                                       loginMethod := Some(ExistingUser), user := Some(user));
            Success(Step(LoginState(session, st.users), Rerun))
          case None => Success(Step(st, ShowError(UnknownUniqueId)))
        else Success(Step(st, ShowError(MissingUniqueId)))
  }

  /** Logging in by name and email never takes the existing-user branch:
      with both fields filled in it registers a new id (failing only on a
      name with no word), whether or not the email is already registered. */
  lemma NameAndEmailAlwaysNewUser(st: LoginState, name: string, email: string)
    requires !st.session.loggedIn
    requires name != "" && email != ""
    ensures var r := Submit(st, NameAndEmail(name, email));
      && (r.Failure? <==> AllWhitespace(name))
      && (r.Success? ==>
            && r.value.state.session.loggedIn
            && r.value.state.session.loginMethod == Some(NewUser)
            && r.value.state.session.userId == Some(UniqueIds.GenerateUniqueId(name, UniqueIdsInUse(st.users)).value)
            && r.value.state.session.name == Some(name)
            && r.value.state.session.user == st.session.user
            && r.value.state.users == SaveUser(st.users, name, email, r.value.state.session.userId.value))
  {
  }

  /** Logging in by unique id logs in exactly when a row carries that id;
      an empty or unknown id leaves the session logged out with an error. The
      users table never changes. */
  lemma UniqueIdLogin(st: LoginState, uniqueId: string)
    requires !st.session.loggedIn
    ensures var r := Submit(st, ByUniqueId(uniqueId));
      && r.Success?
      && r.value.state.users == st.users
      && (r.value.state.session.loggedIn <==> uniqueId != "" && UniqueIdTaken(st.users, uniqueId))
      && (r.value.state.session.loggedIn ==>
            r.value.state.session.userId == Some(uniqueId) &&
            r.value.state.session.loginMethod == Some(ExistingUser) &&
            r.value.state.session.user == UserExists(st.users, Some(uniqueId), None, None) &&
            r.value.state.session.name == st.session.name)
      && (!r.value.state.session.loggedIn ==> r.value.notice.ShowError?)
  {
  }

  /** A second login by name with an email that is already registered logs
      the user in under a brand-new id that the table does not hold: the
      insert is ignored because of the email. Shown for surnames with a
      non-digit character, where the generated id is fresh. */
  lemma RegisteredEmailGetsUnsavedId(st: LoginState, name: string, email: string)
    requires !st.session.loggedIn
    requires name != "" && email != "" && !AllWhitespace(name)
    requires !DigitsOnly(UniqueIds.LastWord(name))
    requires EmailTaken(st.users, email)
    ensures var r := Submit(st, NameAndEmail(name, email));
      && r.Success?
      && r.value.state.session.loggedIn
      && r.value.state.users == st.users
      && !UniqueIdTaken(r.value.state.users, r.value.state.session.userId.value)
  {
    var ids := UniqueIdsInUse(st.users);
    UniqueIds.GeneratedIdIsFresh(name, ids);
  }

  /** Every step keeps the table's UNIQUE constraints. */
  lemma SubmitKeepsUsersValid(st: LoginState, sub: Submission)
    requires Valid(st.users)
    ensures Submit(st, sub).Success? ==> Valid(Submit(st, sub).value.state.users)
  {
  }
}

=== FILE: prediction_page.dfy ===
/** One press of "Predict" on the prediction page (pages/predictions.py):
    decide the label, save it for today, show the verdict sentence, remember
    it for the recommendation prompt, and compute the attribution table.

    The classifier's probabilities, the attribution values and today's date
    are inputs, and the two-decimal rendering of the percentage is a
    function parameter. Whether the save succeeds is an input
    too: any exception the save raises is caught, reported and otherwise
    ignored, and the predictions table is then left as it was. The user id is
    the session's, which is `None` when nobody has logged in. */
module PredictionPage {
  import opened Wrappers
  import Predictions
  import PredictionStore
  import Attribution
  import Text

  /** What the page keeps across reruns, and the predictions table. */
  datatype PageState = PageState(
    predictionMade: bool,
    modelText: Option<string>,
    contributions: Option<seq<Attribution.Contribution>>,
    store: PredictionStore.PredictionTable)

  /** The message shown after the save attempt. */
  datatype SaveNotice = Saved | SaveFailed

  datatype Outcome = Outcome(state: PageState, shown: string, notice: SaveNotice)

  /** Pressing "Predict" for `userId` with the form's answers `entries`;
      the saved features are the vector built from them. */
  function Predict(st: PageState, userId: Option<string>, custom: bool, entries: seq<Predictions.Entry>,
                   p0: real, p1: real, renderPercent: real -> string, today: string, storeWritable: bool,
                   attributions: seq<real>): (o: Outcome)
    requires Predictions.Answered(custom, entries)
    ensures o.state.predictionMade && o.state.modelText == Some(o.shown)
    ensures Predictions.ModelTextPrefix <= o.shown
    ensures Predictions.ModelTextPrefix + Predictions.DiabetesPresent <= o.shown <==> p1 > p0
    ensures o.shown == Predictions.ModelText(Predictions.Decide(p0, p1), renderPercent)
    ensures storeWritable ==>
      o.state.store == PredictionStore.Upsert(st.store, userId, Predictions.BuildVector(custom, entries),
                                              Predictions.Decide(p0, p1).outcome, p1, today)
    ensures storeWritable <==> o.notice == Saved
    ensures !storeWritable ==> o.state.store == st.store
    ensures |attributions| == Predictions.FeatureCount ==> o.state.contributions.Some?
    ensures |attributions| != Predictions.FeatureCount ==> o.state.contributions == st.contributions
  {
    var verdict := Predictions.Decide(p0, p1);
    var text := Predictions.ModelText(verdict, renderPercent);
    Predictions.ModelTextShowsLabel(p0, p1, renderPercent);
    var features := Predictions.BuildVector(custom, entries);
    var store := if storeWritable
      then PredictionStore.Upsert(st.store, userId, features, verdict.outcome, verdict.stored, today)
      else st.store;
    var contributions := match Attribution.ExplainModel(Predictions.FeatureNames, attributions)
      case Success(cs) => Some(cs)
      case Failure(_) => st.contributions;
    Outcome(PageState(true, Some(text), contributions, store),
            text, if storeWritable then Saved else SaveFailed)
  }

  /** A successful save under a user id leaves today's row for the user
      holding the encoded answers, the label shown and the diabetes
      probability `p1`, whichever label won, and keeps one row per user per
      day. Without a user id the save appends a new row instead. */
  lemma PredictSavesToday(st: PageState, userId: Option<string>, custom: bool, entries: seq<Predictions.Entry>,
                          p0: real, p1: real, renderPercent: real -> string, today: string, attributions: seq<real>)
    requires Predictions.Answered(custom, entries)
    requires PredictionStore.Valid(st.store)
    ensures var o := Predict(st, userId, custom, entries, p0, p1, renderPercent, today, true, attributions);
      && PredictionStore.Valid(o.state.store)
      && (userId.Some? ==>
            exists j :: 0 <= j < |o.state.store.rows| && PredictionStore.HasKey(o.state.store.rows[j], userId, today))
      && (userId.None? ==>
            && |o.state.store.rows| == |st.store.rows| + 1
            && o.state.store.rows[|st.store.rows|].userId.None?
            && o.state.store.rows[|st.store.rows|].features == Predictions.BuildVector(custom, entries)
            && o.state.store.rows[|st.store.rows|].probability == p1)
      && (forall j :: 0 <= j < |o.state.store.rows| && PredictionStore.HasKey(o.state.store.rows[j], userId, today) ==>
            && (forall f: Predictions.Feature ::
                  o.state.store.rows[j].features[Predictions.Position(f)] ==
                  Predictions.Encode(Predictions.InputOf(f, custom), entries[Predictions.Position(f)]))
            && o.state.store.rows[j].probability == p1
            && (o.state.store.rows[j].prediction == Predictions.DiabetesPresent <==> p1 > p0))
  {
    var verdict := Predictions.Decide(p0, p1);
    var features := Predictions.BuildVector(custom, entries);
    PredictionStore.UpsertStoresUnderKey(st.store, userId, features, verdict.outcome, verdict.stored, today);
    var o := Predict(st, userId, custom, entries, p0, p1, renderPercent, today, true, attributions);
    if userId.Some? {
      var k := PredictionStore.FindKey(o.state.store.rows, userId, today).value;
      assert PredictionStore.HasKey(o.state.store.rows[k], userId, today);
    }
  }

  /** After a prediction the recommendation prompt embeds the verdict
      sentence that was shown, and the groups of the table computed with it. */
  lemma PromptEmbedsShownVerdict(st: PageState, userId: Option<string>, custom: bool,
                                 entries: seq<Predictions.Entry>, p0: real, p1: real,
                                 renderPercent: real -> string, today: string, storeWritable: bool,
                                 attributions: seq<real>, render: seq<Attribution.Contribution> -> string)
    requires Predictions.Answered(custom, entries)
    requires |attributions| == Predictions.FeatureCount
    ensures var o := Predict(st, userId, custom, entries, p0, p1, renderPercent, today, storeWritable, attributions);
      var p := Attribution.RecommendationPrompt(o.state.contributions.value, o.state.modelText.value, render);
      && Text.Contains(p, o.shown)
      && o.state.contributions == Some(Attribution.ExplainModel(Predictions.FeatureNames, attributions).value)
  {
  }
}

=== FILE: prediction_store.dfy ===
/** The `predictions` table as the prediction page uses it
    (`save_prediction_to_db` in pages/predictions.py): one row per user per
    day, updated in place when the user predicts again on the same day.

    The table is a sequence of rows in row-id order plus the next row id the
    table will hand out; a lookup that returns "the first row" returns the
    earliest one in that order.

    The user id is `None` when the page is used without logging in (the
    session starts with no id). The lookup's `user_id = ?` then compares with
    SQL NULL, which matches no row, so such a save always inserts. */
module PredictionStore {
  import opened Wrappers

  datatype PredictionRow = PredictionRow(
    id: nat,
    userId: Option<string>,
    date: string,
    features: seq<real>,
    prediction: string,
    probability: real)

  datatype PredictionTable = PredictionTable(rows: seq<PredictionRow>, nextId: nat)

  const EmptyTable := PredictionTable([], 1)

  /** `user_id = ? AND date = ?` in SQL: a NULL id on either side matches nothing. */
  predicate HasKey(r: PredictionRow, userId: Option<string>, date: string) {
    userId.Some? && r.userId == userId && r.date == date
  }

  /** Row ids are distinct and below the next id to be handed out. */
  predicate IdsFresh(t: PredictionTable) {
    && (forall i :: 0 <= i < |t.rows| ==> t.rows[i].id < t.nextId)
    && (forall i, j :: 0 <= i < j < |t.rows| ==> t.rows[i].id != t.rows[j].id)
  }

  /** At most one row per (user, date) among the rows saved under a user id;
      rows saved without one are not constrained. */
  predicate OnePerKey(rows: seq<PredictionRow>) {
    forall i, j :: 0 <= i < j < |rows| ==>
      !(rows[i].userId.Some? && rows[i].userId == rows[j].userId && rows[i].date == rows[j].date)
  }

  predicate Valid(t: PredictionTable) {
    IdsFresh(t) && OnePerKey(t.rows)
  }

  /** The position of the first row keyed (userId, date), if any. */
  function FindKey(rows: seq<PredictionRow>, userId: Option<string>, date: string): (r: Option<nat>)
    ensures r.Some? ==> r.value < |rows| && HasKey(rows[r.value], userId, date)
    ensures r.Some? ==> forall j :: 0 <= j < r.value ==> !HasKey(rows[j], userId, date)
    ensures r.None? <==> forall j :: 0 <= j < |rows| ==> !HasKey(rows[j], userId, date)
  {
    if |rows| == 0 then None
    else if HasKey(rows[0], userId, date) then Some(0)
    else match FindKey(rows[1..], userId, date)
      case None => None
      case Some(k) => Some(k + 1)
  }

  /** Saving a prediction for `userId` on `today`. If a row for that user and
      day exists, the first such row gets the new features, label and
      probability and keeps its id; the table keeps its size. Otherwise one
      row with a fresh id and date `today` is appended, which is always the
      case without a user id. No other row changes, and "at most one row per
      (user, date)" is kept. */
  function Upsert(t: PredictionTable, userId: Option<string>, features: seq<real>,
                  prediction: string, probability: real, today: string): (t': PredictionTable)
    ensures FindKey(t.rows, userId, today).Some? ==>
      var i := FindKey(t.rows, userId, today).value;
      && |t'.rows| == |t.rows| && t'.nextId == t.nextId
      && t'.rows[i] == PredictionRow(t.rows[i].id, userId, today, features, prediction, probability)
      && (forall j :: 0 <= j < |t.rows| && j != i ==> t'.rows[j] == t.rows[j])
    ensures FindKey(t.rows, userId, today).None? ==>
      && |t'.rows| == |t.rows| + 1 && t'.nextId == t.nextId + 1
      && t'.rows[..|t.rows|] == t.rows
      && t'.rows[|t.rows|] == PredictionRow(t.nextId, userId, today, features, prediction, probability)
    ensures userId.None? ==> |t'.rows| == |t.rows| + 1
    ensures Valid(t) ==> Valid(t')
  {
    match FindKey(t.rows, userId, today)
    case Some(i) =>
      var old_row := t.rows[i];
      t.(rows := t.rows[i := old_row.(features := features, prediction := prediction, probability := probability)])
    case None =>
      PredictionTable(t.rows + [PredictionRow(t.nextId, userId, today, features, prediction, probability)], t.nextId + 1)
  }

  /** After a save under a user id, the (user, day) key holds a row, and
      every row with that key holds the saved values. */
  lemma {:induction false} UpsertStoresUnderKey(t: PredictionTable, userId: Option<string>, features: seq<real>,
                                                 prediction: string, probability: real, today: string)
    requires Valid(t)
    ensures var t' := Upsert(t, userId, features, prediction, probability, today);
      forall j :: 0 <= j < |t'.rows| && HasKey(t'.rows[j], userId, today) ==>
        t'.rows[j].features == features && t'.rows[j].prediction == prediction &&
        t'.rows[j].probability == probability
    ensures userId.Some? ==>
      FindKey(Upsert(t, userId, features, prediction, probability, today).rows, userId, today).Some?
  {
    var t' := Upsert(t, userId, features, prediction, probability, today);
    match FindKey(t.rows, userId, today)
    case Some(i) =>
      assert HasKey(t'.rows[i], userId, today);
      assert forall j :: 0 <= j < |t'.rows| && j != i ==> t'.rows[j] == t.rows[j];
    case None =>
      if userId.Some? {
        assert HasKey(t'.rows[|t.rows|], userId, today);
      }
  }

  /** Two saves on the same day. Under a user id they leave exactly one row
      for that day, holding the second save's values, and no more rows than
      the first save left. Without a user id each save appends its own row,
      so the day ends with two new rows. */
  lemma {:induction false} UpsertTwiceSameDay(t: PredictionTable, userId: Option<string>, today: string,
                                              f1: seq<real>, l1: string, p1: real,
                                              f2: seq<real>, l2: string, p2: real)
    requires Valid(t)
    ensures var t1 := Upsert(t, userId, f1, l1, p1, today);
      var t2 := Upsert(t1, userId, f2, l2, p2, today);
      && Valid(t2)
      && (userId.Some? ==>
            && |t2.rows| == |t1.rows|
            && (exists j :: 0 <= j < |t2.rows| && HasKey(t2.rows[j], userId, today))
            && (forall j, k ::
                  0 <= j < |t2.rows| && 0 <= k < |t2.rows| &&
                  HasKey(t2.rows[j], userId, today) && HasKey(t2.rows[k], userId, today)
                  ==> j == k)
            && (forall j :: 0 <= j < |t2.rows| && HasKey(t2.rows[j], userId, today) ==>
                  t2.rows[j].features == f2 && t2.rows[j].prediction == l2 && t2.rows[j].probability == p2))
      && (userId.None? ==>
            && |t2.rows| == |t.rows| + 2
            && t2.rows[..|t.rows|] == t.rows
            && t2.rows[|t.rows|] == PredictionRow(t.nextId, None, today, f1, l1, p1)
            && t2.rows[|t.rows| + 1] == PredictionRow(t.nextId + 1, None, today, f2, l2, p2))
  {
    var t1 := Upsert(t, userId, f1, l1, p1, today);
    UpsertStoresUnderKey(t, userId, f1, l1, p1, today);
    UpsertStoresUnderKey(t1, userId, f2, l2, p2, today);
    var t2 := Upsert(t1, userId, f2, l2, p2, today);
    if userId.Some? {
      var k := FindKey(t2.rows, userId, today).value;
      assert HasKey(t2.rows[k], userId, today);
    } else {
      assert t2.rows[..|t.rows|] == t1.rows[..|t1.rows|][..|t.rows|];
    }
  }

  /** The save as the page performs it: look up the id of the first row for
      (user, today), then update that row or insert a new one. */
  method SavePrediction(t: PredictionTable, userId: Option<string>, features: seq<real>,
                        prediction: string, probability: real, today: string)
    returns (t': PredictionTable)
    ensures t' == Upsert(t, userId, features, prediction, probability, today)
  {
    var i := 0;
    while i < |t.rows| && !HasKey(t.rows[i], userId, today)
      invariant 0 <= i <= |t.rows|
      invariant forall j :: 0 <= j < i ==> !HasKey(t.rows[j], userId, today)
      decreases |t.rows| - i
    {
      i := i + 1;
    }
    if i < |t.rows| {
      var row := t.rows[i];
      var updated := row.(features := features, prediction := prediction, probability := probability);
      t' := t.(rows := t.rows[i := updated]);
    } else {
      t' := PredictionTable(t.rows + [PredictionRow(t.nextId, userId, today, features, prediction, probability)],
                            t.nextId + 1);
    }
  }
}

=== FILE: predictions.dfy ===
/** The prediction page's input encoding and label rule (pages/predictions.py).

    Every form answer becomes one number of a 21-field feature vector, in the
    order of `feature_info`: yes/no answers and sex become 0/1 flags, ages in
    years become one of 13 age groups, incomes in dollars one of 8 income
    groups, the general-health and education answers their 1-based codes,
    and weight and height the body-mass index. The classifier's two class
    probabilities then decide the displayed label. */
module Predictions {

  // ---------------------------------------------------------------------------
  // The feature schema: `feature_info`, in declaration order

  /** The keys of `feature_info`; `Name` gives each its key text. */
  datatype Feature =
    | HighBP | HighChol | CholCheck | BMI | Smoker | Stroke
    | HeartDiseaseorAttack | PhysActivity | Fruits | Veggies
    | HvyAlcoholConsump | AnyHealthcare | NoDocbcCost | GenHlth
    | MentHlth | PhysHlth | DiffWalk | Sex | Age | Education | Income

  const Schema: seq<Feature> := [
    HighBP, HighChol, CholCheck, BMI, Smoker, Stroke,
    HeartDiseaseorAttack, PhysActivity, Fruits, Veggies,
    HvyAlcoholConsump, AnyHealthcare, NoDocbcCost, GenHlth,
    MentHlth, PhysHlth, DiffWalk, Sex, Age, Education, Income
  ]

  const FeatureCount := 21

  function Name(f: Feature): string {
    match f
    case HighBP => "HighBP"
    case HighChol => "HighChol"
    case CholCheck => "CholCheck"
    case BMI => "BMI"
    case Smoker => "Smoker"
    case Stroke => "Stroke"
    case HeartDiseaseorAttack => "HeartDiseaseorAttack"
    case PhysActivity => "PhysActivity"
    case Fruits => "Fruits"
    case Veggies => "Veggies"
    case HvyAlcoholConsump => "HvyAlcoholConsump"
    case AnyHealthcare => "AnyHealthcare"
    case NoDocbcCost => "NoDocbcCost"
    case GenHlth => "GenHlth"
    case MentHlth => "MentHlth"
    case PhysHlth => "PhysHlth"
    case DiffWalk => "DiffWalk"
    case Sex => "Sex"
    case Age => "Age"
    case Education => "Education"
    case Income => "Income"
  }

  /** The feature names in schema order: the column names the classifier,
      the attribution table and the predictions table use. */
  const FeatureNames: seq<string> := [
    "HighBP", "HighChol", "CholCheck", "BMI", "Smoker", "Stroke",
    "HeartDiseaseorAttack", "PhysActivity", "Fruits", "Veggies",
    "HvyAlcoholConsump", "AnyHealthcare", "NoDocbcCost", "GenHlth",
    "MentHlth", "PhysHlth", "DiffWalk", "Sex", "Age", "Education", "Income"
  ]

  /** The example value attached to each feature; a "Yes"/"No" example is
      what marks a feature as a yes/no question. */
  datatype Example = Answer(text: string) | Amount(n: int)

  function ExampleOf(f: Feature): Example {
    match f
    case BMI => Amount(28)
    case GenHlth => Amount(3)
    case MentHlth => Amount(0)
    case PhysHlth => Amount(0)
    case Sex => Amount(1)
    case Age => Amount(8)
    case Education => Amount(4)
    case Income => Amount(6)
    case PhysActivity => Answer("Yes")
    case Fruits => Answer("Yes")
    case Veggies => Answer("Yes")
    case AnyHealthcare => Answer("Yes")
    case _ => Answer("No")
  }

  /** The position of each feature in the schema. */
  function Position(f: Feature): (i: nat)
    ensures i < |Schema| && Schema[i] == f
  {
    match f
    case HighBP => 0
    case HighChol => 1
    case CholCheck => 2
    case BMI => 3
    case Smoker => 4
    case Stroke => 5
    case HeartDiseaseorAttack => 6
    case PhysActivity => 7
    case Fruits => 8
    case Veggies => 9
    case HvyAlcoholConsump => 10
    case AnyHealthcare => 11
    case NoDocbcCost => 12
    case GenHlth => 13
    case MentHlth => 14
    case PhysHlth => 15
    case DiffWalk => 16
    case Sex => 17
    case Age => 18
    case Education => 19
    case Income => 20
  }

  /** The schema lists every feature exactly once, 21 in all. */
  lemma SchemaShape()
    ensures |Schema| == FeatureCount && |FeatureNames| == FeatureCount
    ensures forall f: Feature :: Schema[Position(f)] == f
    ensures forall i, j :: 0 <= i < j < |Schema| ==> Schema[i] != Schema[j]
  {
    SchemaPositions();
  }

  lemma SchemaPositions()
    ensures forall i :: 0 <= i < |Schema| ==> Position(Schema[i]) == i
  {
  }

  /** The names in `FeatureNames` are the features' key texts, in schema order. */
  lemma SchemaNames()
    ensures |FeatureNames| == |Schema|
    ensures forall f: Feature :: FeatureNames[Position(f)] == Name(f)
    ensures forall f: Feature, g: Feature :: Name(f) == Name(g) ==> f == g
  {
  }

  // ---------------------------------------------------------------------------
  // Answer labels and their codes

  const YesNoLabels: seq<string> := ["No", "Yes"]
  const SexLabels: seq<string> := ["Female", "Male"]

  const GenHlthLabels: seq<string> := ["Excellent", "Very Good", "Good", "Fair", "Poor"]
  const GenHlthOptions: map<string, int> :=
    map["Excellent" := 1, "Very Good" := 2, "Good" := 3, "Fair" := 4, "Poor" := 5]

  const EducationLabels: seq<string> := [
    "Never attended school or only kindergarten",
    "Grades 1 through 8 (Elementary)",
    "Grades 9 through 11 (Some high school)",
    "Grade 12 or GED (High school graduate)",
    "College 1 year to 3 years (Some college or technical school)",
    "College 4 years or more (College graduate)"
  ]
  const EducationOptions: map<string, int> := map[
    "Never attended school or only kindergarten" := 1,
    "Grades 1 through 8 (Elementary)" := 2,
    "Grades 9 through 11 (Some high school)" := 3,
    "Grade 12 or GED (High school graduate)" := 4,
    "College 1 year to 3 years (Some college or technical school)" := 5,
    "College 4 years or more (College graduate)" := 6
  ]

  /** A yes/no answer is 1 exactly when it is "Yes"; anything else is 0. */
  function YesNoCode(answer: string): (c: int)
    ensures c == 0 || c == 1
    ensures c == 1 <==> answer == "Yes"
  {
    if answer == "Yes" then 1 else 0
  }

  /** Sex is 1 exactly when the answer is "Male"; anything else is 0. */
  function SexCode(answer: string): (c: int)
    ensures c == 0 || c == 1
    ensures c == 1 <==> answer == "Male"
  {
    if answer == "Male" then 1 else 0
  }

  /** The general-health code of a listed answer: its 1-based position in the list. */
  function GenHlthCode(answer: string): (c: int)
    requires answer in GenHlthOptions
    ensures 1 <= c <= 5 && GenHlthLabels[c - 1] == answer
  {
    GenHlthOptions[answer]
  }

  /** The education code of a listed answer: its 1-based position in the list. */
  function EducationCode(answer: string): (c: int)
    requires answer in EducationOptions
    ensures 1 <= c <= 6 && EducationLabels[c - 1] == answer
  {
    EducationOptions[answer]
  }

  /** The general-health answers are exactly the listed labels, and the
      label at position `i` has code `i + 1`; so distinct answers get
      distinct codes and every code 1..5 is used. */
  lemma GenHlthMapBijective()
    ensures forall a :: a in GenHlthOptions <==> a in GenHlthLabels
    ensures forall i :: 0 <= i < |GenHlthLabels| ==> GenHlthCode(GenHlthLabels[i]) == i + 1
    ensures forall a, b :: a in GenHlthOptions && b in GenHlthOptions && a != b ==> GenHlthCode(a) != GenHlthCode(b)
  {
  }

  /** The same for the six education answers and codes 1..6. */
  lemma EducationMapBijective()
    ensures forall a :: a in EducationOptions <==> a in EducationLabels
    ensures forall i :: 0 <= i < |EducationLabels| ==> EducationCode(EducationLabels[i]) == i + 1
    ensures forall a, b :: a in EducationOptions && b in EducationOptions && a != b ==> EducationCode(a) != EducationCode(b)
  {
  }

  // ---------------------------------------------------------------------------
  // Age and income groups

  /** The age group of an age in years: 1 up to 24, then one group per five
      years (25-29 is 2, ..., 75-79 is 12), and 13 from 80 on. */
  function AgeBracket(age: int): (b: int)
    ensures 1 <= b <= 13
    ensures b == 1 <==> age <= 24
    ensures b == 13 <==> age >= 80
    ensures 2 <= b <= 12 ==> 5 * b + 15 <= age <= 5 * b + 19
  {
    if age <= 24 then 1
    else if age <= 29 then 2
    else if age <= 34 then 3
    else if age <= 39 then 4
    else if age <= 44 then 5
    else if age <= 49 then 6
    else if age <= 54 then 7
    else if age <= 59 then 8
    else if age <= 64 then 9
    else if age <= 69 then 10
    else if age <= 74 then 11
    else if age <= 79 then 12
    else 13
  }

  /** An older person is never in a younger age group. */
  lemma AgeBracketMonotone(a: int, b: int)
    requires a <= b
    ensures AgeBracket(a) <= AgeBracket(b)
  {
  }

  /** Inside the five-year groups the group is an arithmetic function of the age. */
  lemma AgeBracketClosedForm(age: int)
    requires 25 <= age <= 79
    ensures AgeBracket(age) == (age - 25) / 5 + 2
  {
  }

  /** The lower bounds of income groups 2..8, in dollars; each is exclusive
      for the group below it. */
  const IncomeThresholds: seq<int> := [10000, 15000, 20000, 25000, 35000, 50000, 75000]

  /** How many thresholds an income has reached. */
  function ThresholdsReached(ts: seq<int>, income: int): (n: nat)
    ensures n <= |ts|
  {
    if |ts| == 0 then 0
    else (if ts[0] <= income then 1 else 0) + ThresholdsReached(ts[1..], income)
  }

  /** When the thresholds below position `k` are reached and those from `k`
      on are not, exactly `k` thresholds are reached. */
  lemma {:induction false} ThresholdsReachedSplit(ts: seq<int>, income: int, k: nat)
    requires k <= |ts|
    requires forall j :: 0 <= j < k ==> ts[j] <= income
    requires forall j :: k <= j < |ts| ==> income < ts[j]
    ensures ThresholdsReached(ts, income) == k
    decreases |ts|
  {
    if |ts| > 0 {
      ThresholdsReachedSplit(ts[1..], income, if k == 0 then 0 else k - 1);
    }
  }

  /** The income group of an income in dollars; every threshold is compared with `<`. */
  function IncomeBracket(income: int): (b: int)
    ensures 1 <= b <= 8
    ensures b == 1 <==> income < IncomeThresholds[0]
    ensures b == 8 <==> income >= IncomeThresholds[6]
    ensures 2 <= b <= 7 ==> IncomeThresholds[b - 2] <= income < IncomeThresholds[b - 1]
  {
    if income < 10000 then 1
    else if income < 15000 then 2
    else if income < 20000 then 3
    else if income < 25000 then 4
    else if income < 35000 then 5
    else if income < 50000 then 6
    else if income < 75000 then 7
    else 8
  }

  /** The income group is one more than the number of thresholds reached, so
      it never decreases as income grows. */
  lemma IncomeBracketCountsThresholds(income: int)
    ensures IncomeBracket(income) == 1 + ThresholdsReached(IncomeThresholds, income)
  {
    ThresholdsReachedSplit(IncomeThresholds, income, IncomeBracket(income) - 1);
  }

  lemma IncomeBracketMonotone(a: int, b: int)
    requires a <= b
    ensures IncomeBracket(a) <= IncomeBracket(b)
  {
  }

  /** The bracket boundaries, exactly as the thresholds are written: the last
      age of a group and the first age of the next, and the same for incomes. */
  lemma BracketBoundaries()
    ensures AgeBracket(24) == 1 && AgeBracket(25) == 2 && AgeBracket(30) == 3
    ensures AgeBracket(79) == 12 && AgeBracket(80) == 13
    ensures IncomeBracket(9999) == 1 && IncomeBracket(10000) == 2
    ensures IncomeBracket(74999) == 7 && IncomeBracket(75000) == 8
  {
  }

  // ---------------------------------------------------------------------------
  // Body-mass index

  lemma QuotientKeepsSign(w: real, d: real)
    requires d > 0.0
    ensures w >= 0.0 ==> w / d >= 0.0
  {
  }

  /** Weight over height squared, or 0 when the height is not positive. */
  function Bmi(weight: real, height: real): (bmi: real)
    ensures height > 0.0 ==> bmi * height * height == weight
    ensures height <= 0.0 ==> bmi == 0.0
    ensures weight >= 0.0 ==> bmi >= 0.0
  {
    if height > 0.0 then
      var perMetre := weight / height;
      QuotientKeepsSign(weight, height);
      QuotientKeepsSign(perMetre, height);
      perMetre / height
    else 0.0
  }

  // ---------------------------------------------------------------------------
  // Widgets: which input each feature gets, and what it can produce

  /** The input a feature is asked through; the branch order of the form loop. */
  datatype Widget =
    | WeightHeightInputs
    | GenHlthSelect
    | SexSelect
    | AgeInput
    | IncomeInput
    | EducationSelect
    | YesNoSelect
    | NumberInput

  /** Feature keys are compared by value, so a test on the key text is a
      test on the feature. */
  function WidgetFor(feature: Feature, example: Example, custom: bool): Widget {
    if feature == BMI && custom then WeightHeightInputs
    else if feature == GenHlth then GenHlthSelect
    else if feature == Sex then SexSelect
    else if feature == Age then AgeInput
    else if feature == Income then IncomeInput
    else if feature == Education then EducationSelect
    else if example.Answer? && example.text in YesNoLabels then YesNoSelect
    else NumberInput
  }

  /** The input a feature gets on the form: weight and height for BMI when
      the user enters their own values, a dedicated input for general
      health, sex, age, income and education, a "No"/"Yes" select for every
      other feature whose example is an answer, and a plain number input for
      the day counts (and for a demo profile's BMI). */
  function InputOf(f: Feature, custom: bool): (w: Widget)
    ensures w == WeightHeightInputs <==> f == BMI && custom
    ensures w == NumberInput <==> f == MentHlth || f == PhysHlth || (f == BMI && !custom)
    ensures w == YesNoSelect <==> f !in {BMI, GenHlth, Sex, Age, Income, Education, MentHlth, PhysHlth}
    ensures f == GenHlth ==> w == GenHlthSelect
    ensures f == Sex ==> w == SexSelect
    ensures f == Age ==> w == AgeInput
    ensures f == Income ==> w == IncomeInput
    ensures f == Education ==> w == EducationSelect
  {
    WidgetFor(f, ExampleOf(f), custom)
  }

  /** What a user can enter into an input. */
  datatype Entry = Choice(option: string) | Number(n: int) | Measurements(weight: real, height: real)

  /** The values an input lets through: its option list or its min/max bounds. */
  predicate Admits(w: Widget, e: Entry) {
    match w
    case WeightHeightInputs => e.Measurements? && 0.0 <= e.weight <= 300.0 && 0.0 <= e.height <= 3.0
    case GenHlthSelect => e.Choice? && e.option in GenHlthOptions
    case SexSelect => e.Choice? && e.option in SexLabels
    case AgeInput => e.Number? && 0 <= e.n <= 120
    case IncomeInput => e.Number? && 0 <= e.n <= 1000000
    case EducationSelect => e.Choice? && e.option in EducationOptions
    case YesNoSelect => e.Choice? && e.option in YesNoLabels
    case NumberInput => e.Number? && 0 <= e.n <= 100
  }

  /** The value an input's answer contributes to the feature vector: "Yes"
      and "Male" are the only answers read as 1, a number input passes its
      number through, and the other inputs give a positive code. */
  function Encode(w: Widget, e: Entry): (x: real)
    requires Admits(w, e)
    ensures w == YesNoSelect ==> (x == 1.0 <==> e.option == "Yes") && (x == 0.0 <==> e.option == "No")
    ensures w == SexSelect ==> (x == 1.0 <==> e.option == "Male") && (x == 0.0 <==> e.option == "Female")
    ensures w == NumberInput ==> x == e.n as real
    ensures w == WeightHeightInputs ==> x == Bmi(e.weight, e.height)
    ensures w in {GenHlthSelect, AgeInput, IncomeInput, EducationSelect} ==> x >= 1.0
  {
    match w
    case WeightHeightInputs => Bmi(e.weight, e.height)
    case GenHlthSelect => GenHlthCode(e.option) as real
    case SexSelect => SexCode(e.option) as real
    case AgeInput => AgeBracket(e.n) as real
    case IncomeInput => IncomeBracket(e.n) as real
    case EducationSelect => EducationCode(e.option) as real
    case YesNoSelect => YesNoCode(e.option) as real
    case NumberInput => e.n as real
  }

  /** `x` is a whole number between `lo` and `hi`. */
  predicate IsCode(x: real, lo: int, hi: int) {
    x == x.Floor as real && lo <= x.Floor <= hi
  }

  /** The range each feature of a finished vector lies in: a 0/1 flag, an
      ordinal code, a day count, or a non-negative body-mass index. */
  predicate WithinSchema(feature: Feature, x: real) {
    match feature
    case BMI => x >= 0.0
    case GenHlth => IsCode(x, 1, 5)
    case Age => IsCode(x, 1, 13)
    case Income => IsCode(x, 1, 8)
    case Education => IsCode(x, 1, 6)
    case MentHlth => IsCode(x, 0, 100)
    case PhysHlth => IsCode(x, 0, 100)
    case _ => IsCode(x, 0, 1)
  }

  /** Every answer the form admits for a feature is encoded within that feature's range. */
  lemma EncodeWithinSchema(f: Feature, custom: bool, e: Entry)
    requires Admits(InputOf(f, custom), e)
    ensures WithinSchema(f, Encode(InputOf(f, custom), e))
  {
  }

  /** The answers are one per feature, in schema order, each admitted by
      the input the form shows for that feature. */
  predicate Answered(custom: bool, entries: seq<Entry>) {
    && |entries| == FeatureCount
    && forall i :: 0 <= i < FeatureCount ==> Admits(InputOf(Schema[i], custom), entries[i])
  }

  /** The feature vector handed to the scaler: one value per feature, in
      schema order, each within its feature's range; the value at feature
      `f`'s position is the encoding of the answer given for `f`. `custom` is
      true when the user enters their own values rather than a demo
      profile's. */
  function BuildVector(custom: bool, entries: seq<Entry>): (v: seq<real>)
    requires Answered(custom, entries)
    ensures |v| == FeatureCount
    ensures forall i :: 0 <= i < FeatureCount ==> WithinSchema(Schema[i], v[i])
    ensures forall f: Feature ::
      (Admits(InputOf(f, custom), entries[Position(f)]) &&
       v[Position(f)] == Encode(InputOf(f, custom), entries[Position(f)]))
  {
    forall i | 0 <= i < FeatureCount {
      EncodeWithinSchema(Schema[i], custom, entries[i]);
    }
    seq(FeatureCount, i requires 0 <= i < FeatureCount => Encode(InputOf(Schema[i], custom), entries[i]))
  }

  // ---------------------------------------------------------------------------
  // Demo profiles

  /** The three demo profiles of `demo_profiles`. Each gives a value for
      every feature, so the page's lookups never fall back to their defaults. */
  datatype DemoProfile = OlderMaleHighBmi | YoungerMaleHighBmi | OlderFemaleHealthyDiet

  function Pick(profile: DemoProfile, first: int, second: int, third: int): int {
    match profile
    case OlderMaleHighBmi => first
    case YoungerMaleHighBmi => second
    case OlderFemaleHealthyDiet => third
  }

  /** The value a demo profile gives a feature, in the profile order above.
      Every value except the age (given in years) already lies in its
      feature's encoded range. */
  function DemoValue(profile: DemoProfile, f: Feature): (v: int)
    ensures f != Age ==> WithinSchema(f, v as real)
    ensures f == Age ==> 18 <= v <= 120
  {
    match f
    case HighBP => Pick(profile, 1, 0, 1)
    case HighChol => Pick(profile, 1, 1, 0)
    case CholCheck => Pick(profile, 0, 1, 1)
    case BMI => Pick(profile, 35, 32, 22)
    case Smoker => Pick(profile, 1, 1, 0)
    case Stroke => Pick(profile, 1, 0, 0)
    case HeartDiseaseorAttack => Pick(profile, 1, 0, 0)
    case PhysActivity => Pick(profile, 0, 0, 1)
    case Fruits => Pick(profile, 0, 0, 1)
    case Veggies => Pick(profile, 0, 0, 1)
    case HvyAlcoholConsump => Pick(profile, 1, 1, 0)
    case AnyHealthcare => Pick(profile, 0, 1, 1)
    case NoDocbcCost => Pick(profile, 1, 0, 0)
    case GenHlth => Pick(profile, 5, 4, 2)
    case MentHlth => Pick(profile, 20, 15, 2)
    case PhysHlth => Pick(profile, 25, 10, 3)
    case DiffWalk => Pick(profile, 1, 0, 0)
    case Sex => Pick(profile, 1, 1, 0)
    case Age => Pick(profile, 65, 25, 74)
    case Education => Pick(profile, 3, 4, 1)
    case Income => Pick(profile, 2, 5, 1)
  }

  /** A demo value is one its input can show as the preselected default:
      a valid option index for a select, a value within bounds for a number input. */
  predicate DefaultFits(w: Widget, v: int) {
    match w
    case WeightHeightInputs => false
    case GenHlthSelect => 1 <= v <= |GenHlthLabels|
    case SexSelect => 0 <= v < |SexLabels|
    case AgeInput => 0 <= v <= 120
    case IncomeInput => 0 <= v <= 1000000
    case EducationSelect => 1 <= v <= |EducationLabels|
    case YesNoSelect => 0 <= v < |YesNoLabels|
    case NumberInput => 0 <= v <= 100
  }

  /** The answer an input shows preselected for a demo value: the option at
      index `v - 1` (general health, education) or `v` (sex, yes/no), or the
      number itself. */
  function DemoDefault(w: Widget, v: int): (e: Entry)
    requires DefaultFits(w, v)
    ensures Admits(w, e)
  {
    match w
    case GenHlthSelect => Choice(GenHlthLabels[v - 1])
    case SexSelect => Choice(SexLabels[v])
    case EducationSelect => Choice(EducationLabels[v - 1])
    case YesNoSelect => Choice(YesNoLabels[v])
    case _ => Number(v)
  }

  /** Accepting a demo profile's defaults reproduces its values for every
      select and plain number; ages and incomes are re-bracketed as years and dollars. */
  lemma DemoDefaultRoundTrip(w: Widget, v: int)
    requires DefaultFits(w, v)
    ensures w != AgeInput && w != IncomeInput ==> Encode(w, DemoDefault(w, v)) == v as real
    ensures w == AgeInput ==> Encode(w, DemoDefault(w, v)) == AgeBracket(v) as real
    ensures w == IncomeInput ==> Encode(w, DemoDefault(w, v)) == IncomeBracket(v) as real
  {
    GenHlthMapBijective();
    EducationMapBijective();
  }

  /** Every value of every demo profile is one its feature's input can show
      as a default, so loading a profile preselects an answer for every input. */
  lemma DemoProfilesFit(profile: DemoProfile, f: Feature)
    ensures DefaultFits(InputOf(f, false), DemoValue(profile, f))
  {
  }

  /** The first demo profile's age 65 and income 2 are read as years and
      dollars: they land in age group 10 and income group 1. */
  lemma DemoProfileOneBrackets()
    ensures DemoValue(OlderMaleHighBmi, Age) == 65 && AgeBracket(65) == 10
    ensures DemoValue(OlderMaleHighBmi, Income) == 2 && IncomeBracket(2) == 1
  {
  }

  // ---------------------------------------------------------------------------
  // The label rule

  const DiabetesPresent := "Diabetes Present"
  const NoDiabetesPresent := "No Diabetes Present"

  /** What a prediction shows and stores: the label, the percentage shown
      next to it, and the probability written to storage. */
  datatype Verdict = Verdict(outcome: string, percent: real, stored: real)

  /** The label from the two class probabilities `p0` (no diabetes) and `p1`
      (diabetes). A tie goes to "No Diabetes Present". The percentage shown is
      that of the shown label; the stored probability is always `p1`. */
  function Decide(p0: real, p1: real): (v: Verdict)
    ensures v.outcome == DiabetesPresent <==> p1 > p0
    ensures v.outcome == DiabetesPresent || v.outcome == NoDiabetesPresent
    ensures v.percent == 100.0 * (if v.outcome == DiabetesPresent then p1 else p0)
    ensures v.percent >= 100.0 * p0 && v.percent >= 100.0 * p1
    ensures v.stored == p1
  {
    var outcome := if p1 > p0 then DiabetesPresent else NoDiabetesPresent;
    var shown := if p1 >= p0 then p1 else p0;
    Verdict(outcome, shown * 100.0, p1)
  }

  /** For a probability distribution over the two classes the shown percentage
      is at least 50, and the stored value is above one half exactly when the
      label is "Diabetes Present". */
  lemma DecideOnDistribution(p0: real, p1: real)
    requires 0.0 <= p0 && 0.0 <= p1 && p0 + p1 == 1.0
    ensures 50.0 <= Decide(p0, p1).percent <= 100.0
    ensures Decide(p0, p1).outcome == DiabetesPresent <==> Decide(p0, p1).stored > 0.5
  {
  }

  const ModelTextPrefix := "The model predicts: **"

  const PercentSuffix := "% probability"

  /** The sentence shown with the prediction and later embedded in the
      recommendation prompt: the label, then the verdict's percentage as
      `render` writes it (two decimals in the source). */
  function ModelText(v: Verdict, render: real -> string): (t: string)
    ensures ModelTextPrefix <= t && v.outcome <= t[|ModelTextPrefix|..]
    ensures var tail := render(v.percent) + PercentSuffix;
      |tail| <= |t| && t[|t| - |tail|..] == tail
  {
    ModelTextPrefix + v.outcome + "** with " + render(v.percent) + PercentSuffix
  }

  /** The shown sentence names the winning label: it reads "Diabetes
      Present" right after the prefix exactly when `p1` is larger, since the
      other label starts with "No". */
  lemma ModelTextShowsLabel(p0: real, p1: real, render: real -> string)
    ensures ModelTextPrefix + DiabetesPresent <= ModelText(Decide(p0, p1), render) <==> p1 > p0
  {
    var t := ModelText(Decide(p0, p1), render);
    if p1 <= p0 {
      assert t[|ModelTextPrefix|] == 'N';
    }
  }
}

=== FILE: seqs.dfy ===
/** Order-preserving selection from a sequence: the model of a boolean-mask
    row selection (`df[mask]`) and of a list comprehension with an `if`. */
module Seqs {

  /** The elements of `s` satisfying `p`, in their original order. */
  function Filter<T>(s: seq<T>, p: T -> bool): (r: seq<T>)
    ensures |r| <= |s|
    ensures forall i :: 0 <= i < |r| ==> r[i] in s && p(r[i])
    ensures forall i :: 0 <= i < |s| && p(s[i]) ==> s[i] in r
  {
    if |s| == 0 then []
    else
      assert s == [s[0]] + s[1..];
      if p(s[0]) then [s[0]] + Filter(s[1..], p) else Filter(s[1..], p)
  }

  /** Selection distributes over concatenation: no element moves past
      another, so each selected group keeps the relative order it had. */
  lemma {:induction false} FilterConcat<T>(s: seq<T>, t: seq<T>, p: T -> bool)
    ensures Filter(s + t, p) == Filter(s, p) + Filter(t, p)
    decreases |s|
  {
    if |s| == 0 {
      assert s + t == t;
    } else {
      assert (s + t)[1..] == s[1..] + t;
      FilterConcat(s[1..], t, p);
    }
  }

  /** A mask and its complement split a sequence with nothing lost or duplicated. */
  lemma {:induction false} FilterPartition<T>(s: seq<T>, p: T -> bool, q: T -> bool)
    requires forall i :: 0 <= i < |s| ==> q(s[i]) == !p(s[i])
    ensures multiset(Filter(s, p)) + multiset(Filter(s, q)) == multiset(s)
    decreases |s|
  {
    if |s| > 0 {
      FilterPartition(s[1..], p, q);
      assert s == [s[0]] + s[1..];
    }
  }

  /** Three masks of which every element meets exactly one split a sequence
      with nothing lost or duplicated. */
  lemma {:induction false} FilterPartitionThree<T>(s: seq<T>, p: T -> bool, q: T -> bool, z: T -> bool)
    requires forall i :: 0 <= i < |s| ==> (p(s[i]) || q(s[i]) || z(s[i]))
    requires forall i :: 0 <= i < |s| ==> !(p(s[i]) && q(s[i])) && !(p(s[i]) && z(s[i])) && !(q(s[i]) && z(s[i]))
    ensures multiset(Filter(s, p)) + multiset(Filter(s, q)) + multiset(Filter(s, z)) == multiset(s)
    decreases |s|
  {
    if |s| > 0 {
      FilterPartitionThree(s[1..], p, q, z);
      assert s == [s[0]] + s[1..];
    }
  }

  /** Selecting every element of a sequence all of whose elements qualify gives it back. */
  lemma {:induction false} FilterAll<T>(s: seq<T>, p: T -> bool)
    requires forall i :: 0 <= i < |s| ==> p(s[i])
    ensures Filter(s, p) == s
    decreases |s|
  {
    if |s| > 0 {
      FilterAll(s[1..], p);
    }
  }

  /** `R` holds between every element of `s` and each later one. */
  predicate Ordered<T>(s: seq<T>, R: (T, T) -> bool) {
    forall i, j :: 0 <= i < j < |s| ==> R(s[i], s[j])
  }

  /** Putting in front an element related to everything keeps a sequence ordered. */
  lemma ConsOrdered<T>(x: T, s: seq<T>, R: (T, T) -> bool)
    requires Ordered(s, R)
    requires forall j :: 0 <= j < |s| ==> R(x, s[j])
    ensures Ordered([x] + s, R)
  {
    var r := [x] + s;
    forall i, j | 0 <= i < j < |r|
      ensures R(r[i], r[j])
    {
      if i > 0 {
        assert r[i] == s[i - 1] && r[j] == s[j - 1];
      }
    }
  }

  /** Any relation that holds between every element and each later one still
      holds in the selection: selecting never reorders. */
  lemma {:induction false} FilterKeepsOrder<T>(s: seq<T>, p: T -> bool, R: (T, T) -> bool)
    requires Ordered(s, R)
    ensures Ordered(Filter(s, p), R)
    decreases |s|
  {
    if |s| > 0 {
      var t := s[1..];
      assert Ordered(t, R) by {
        assert forall i :: 0 <= i < |t| ==> t[i] == s[i + 1];
      }
      FilterKeepsOrder(t, p, R);
      if p(s[0]) {
        var tail := Filter(t, p);
        forall j | 0 <= j < |tail|
          ensures R(s[0], tail[j])
        {
          var k :| 0 <= k < |t| && t[k] == tail[j];
          assert s[k + 1] == tail[j];
        }
        ConsOrdered(s[0], tail, R);
      }
    }
  }
}

=== FILE: text.dfy ===
/** The handful of Python string operations the application relies on, over
    `string` (a sequence of characters): `str.split()` with no separator,
    `str.lower()`, `str.isdigit()`, `int(...)` and `str(...)` on decimal
    numerals, `str.replace(old, "")`, and `str.split(sep)[0]`. Character
    classes are the ASCII ones; see the README for what that leaves out. */
module Text {

  /** Python's `str.isspace` on the ASCII range: space, `\t` `\n` `\v` `\f` `\r`,
      and the four information separators 0x1C..0x1F. */
  predicate IsWhitespace(c: char) {
    c == ' ' || (9 <= c as int <= 13) || (28 <= c as int <= 31)
  }

  predicate IsDigit(c: char) {
    '0' <= c <= '9'
  }

  predicate NoWhitespace(s: string) {
    forall i :: 0 <= i < |s| ==> !IsWhitespace(s[i])
  }

  predicate AllWhitespace(s: string) {
    forall i :: 0 <= i < |s| ==> IsWhitespace(s[i])
  }

  predicate DigitsOnly(s: string) {
    forall i :: 0 <= i < |s| ==> IsDigit(s[i])
  }

  /** Python's `s.isdigit()`: non-empty and made of digits only. */
  predicate IsDigitString(s: string) {
    |s| > 0 && DigitsOnly(s)
  }

  /** `t` occurs in `s` as a contiguous block. */
  predicate Contains(s: string, t: string) {
    exists i :: 0 <= i <= |s| - |t| && t <= s[i..]
  }

  /** A text occurs at the front of anything it starts. */
  lemma ContainsPrefix(t: string, rest: string)
    ensures Contains(t + rest, t)
  {
    assert t <= (t + rest)[0..];
  }

  /** An occurrence survives putting more text in front. */
  lemma ContainsAfter(front: string, s: string, t: string)
    requires Contains(s, t)
    ensures Contains(front + s, t)
  {
    var i :| 0 <= i <= |s| - |t| && t <= s[i..];
    assert (front + s)[|front| + i..] == s[i..];
  }

  /** A template with three slots contains whatever fills each slot. */
  lemma SlotsContained(a: string, x: string, b: string, y: string, c: string, z: string, d: string)
    ensures var p := a + (x + (b + (y + (c + (z + d)))));
      Contains(p, x) && Contains(p, y) && Contains(p, z)
  {
    var tz := z + d;
    var ty := y + (c + tz);
    var tx := x + (b + ty);
    ContainsPrefix(z, d);
    ContainsAfter(c, tz, z);
    ContainsPrefix(y, c + tz);
    ContainsAfter(y, c + tz, z);
    ContainsAfter(b, ty, y);
    ContainsAfter(b, ty, z);
    ContainsPrefix(x, b + ty);
    ContainsAfter(x, b + ty, y);
    ContainsAfter(x, b + ty, z);
    ContainsAfter(a, tx, x);
    ContainsAfter(a, tx, y);
    ContainsAfter(a, tx, z);
  }

  // ---------------------------------------------------------------------------
  // Case folding

  function LowerChar(c: char): char {
    if 'A' <= c <= 'Z' then (c as int + 32) as char else c
  }

  /** Python's `s.lower()` restricted to ASCII letters. */
  function Lower(s: string): (r: string)
    ensures |r| == |s|
    ensures forall i :: 0 <= i < |s| ==> r[i] == LowerChar(s[i])
  {
    seq(|s|, i requires 0 <= i < |s| => LowerChar(s[i]))
  }

  /** Lower-casing neither creates whitespace nor turns a non-digit into a digit. */
  lemma LowerKeepsClasses(s: string)
    ensures NoWhitespace(s) ==> NoWhitespace(Lower(s))
    ensures forall i :: 0 <= i < |s| ==> (IsDigit(Lower(s)[i]) <==> IsDigit(s[i]))
  {
  }

  // ---------------------------------------------------------------------------
  // Whitespace splitting: `s.split()`

  /** The run of non-whitespace characters at the very front of `s`. */
  function LeadingToken(s: string): (t: string)
    ensures t <= s
    ensures NoWhitespace(t)
    ensures |t| == |s| || IsWhitespace(s[|t|])
    ensures |s| > 0 && !IsWhitespace(s[0]) ==> |t| > 0
  {
    if |s| == 0 || IsWhitespace(s[0]) then []
    else [s[0]] + LeadingToken(s[1..])
  }

  /** Python's `s.split()`: the maximal runs of non-whitespace characters, in order. */
  function Words(s: string): (ws: seq<string>)
    ensures forall k :: 0 <= k < |ws| ==> |ws[k]| > 0 && NoWhitespace(ws[k])
    ensures |ws| == 0 <==> AllWhitespace(s)
    decreases |s|
  {
    if |s| == 0 then []
    else if IsWhitespace(s[0]) then Words(s[1..])
    else
      var t := LeadingToken(s);
      [t] + Words(s[|t|..])
  }

  /** A token is cut off by the first whitespace character, whatever follows it. */
  lemma {:induction false} LeadingTokenStopsAtWhitespace(a: string, b: string)
    requires |b| > 0 && IsWhitespace(b[0])
    ensures LeadingToken(a + b) == LeadingToken(a)
    decreases |a|
  {
    if |a| == 0 {
      assert a + b == b;
    } else if !IsWhitespace(a[0]) {
      assert (a + b)[1..] == a[1..] + b;
      LeadingTokenStopsAtWhitespace(a[1..], b);
    }
  }

  /** Splitting text joined by a whitespace character splits each side on its own. */
  lemma {:induction false} WordsOfJoin(a: string, c: char, b: string)
    requires IsWhitespace(c)
    ensures Words(a + [c] + b) == Words(a) + Words(b)
    decreases |a|, 1
  {
    var s := a + [c] + b;
    if |a| == 0 {
      assert s == [c] + b;
      assert s[1..] == b;
    } else if IsWhitespace(a[0]) {
      assert s[1..] == a[1..] + [c] + b;
      WordsOfJoin(a[1..], c, b);
    } else {
      WordsOfJoinAtWord(a, c, b);
    }
  }

  /** The case of `WordsOfJoin` where `a` starts with a word. */
  lemma {:induction false} WordsOfJoinAtWord(a: string, c: char, b: string)
    requires IsWhitespace(c)
    requires |a| > 0 && !IsWhitespace(a[0])
    ensures Words(a + [c] + b) == Words(a) + Words(b)
    decreases |a|, 0
  {
    var rest := [c] + b;
    var s := a + rest;
    var t := LeadingToken(a);
    calc {
      Words(a + [c] + b);
      { assert a + [c] + b == s; }
      Words(s);
      { LeadingTokenStopsAtWhitespace(a, rest); assert s[0] == a[0]; }
      [t] + Words(s[|t|..]);
      { assert s[|t|..] == a[|t|..] + [c] + b; }
      [t] + Words(a[|t|..] + [c] + b);
      { WordsOfJoin(a[|t|..], c, b); }
      [t] + (Words(a[|t|..]) + Words(b));
      ([t] + Words(a[|t|..])) + Words(b);
      Words(a) + Words(b);
    }
  }

  /** A single whitespace-free word splits to itself. */
  lemma {:induction false} WordsOfWord(w: string)
    requires |w| > 0 && NoWhitespace(w)
    ensures Words(w) == [w]
  {
    assert LeadingToken(w) == w by { LeadingTokenOfWord(w); }
    assert w[|w|..] == [];
  }

  lemma {:induction false} LeadingTokenOfWord(w: string)
    requires NoWhitespace(w)
    ensures LeadingToken(w) == w
    decreases |w|
  {
    if |w| > 0 {
      LeadingTokenOfWord(w[1..]);
      assert w == [w[0]] + w[1..];
    }
  }

  // ---------------------------------------------------------------------------
  // Decimal numerals: `str(n)` and `int(s)`

  function DigitChar(d: nat): (c: char)
    requires d < 10
    ensures IsDigit(c)
  {
    (48 + d) as char
  }

  function DigitValue(c: char): (d: nat)
    requires IsDigit(c)
    ensures d < 10 && DigitChar(d) == c
  {
    c as int - 48
  }

  /** Python's `str(n)` for a natural number: no sign, no leading zero. */
  function DecimalString(n: nat): (s: string)
    ensures IsDigitString(s)
    ensures |s| > 1 ==> s[0] != '0'
  {
    if n < 10 then [DigitChar(n)]
    else DecimalString(n / 10) + [DigitChar(n % 10)]
  }

  /** Python's `int(s)` on a string of ASCII digits; leading zeros are allowed. */
  function DecimalValue(s: string): nat
    requires DigitsOnly(s)
  {
    if |s| == 0 then 0
    else 10 * DecimalValue(s[..|s| - 1]) + DigitValue(s[|s| - 1])
  }

  /** Reading back a rendered number gives the number. */
  lemma {:induction false} DecimalRoundTrip(n: nat)
    ensures DecimalValue(DecimalString(n)) == n
  {
    var s := DecimalString(n);
    if n >= 10 {
      DecimalRoundTrip(n / 10);
      assert s[..|s| - 1] == DecimalString(n / 10);
    }
  }

  // ---------------------------------------------------------------------------
  // Deletion of every occurrence: `s.replace(pat, "")`

  /** Python's `s.replace(pat, "")`: scanning left to right, every occurrence of
      `pat` that does not overlap an earlier removed one is deleted. */
  function RemoveAll(s: string, pat: string): (r: string)
    requires |pat| > 0
    ensures |r| <= |s|
    ensures forall i :: 0 <= i < |r| ==> r[i] in s
    ensures |r| == |s| <==> r == s
    ensures |r| == |s| <==> !Contains(s, pat)
    decreases |s|
  {
    if |s| < |pat| then s
    else if pat <= s then
      var t := RemoveAll(s[|pat|..], pat);
      assert forall c :: c in s[|pat|..] ==> c in s;
      assert pat <= s[0..];
      t
    else
      var t := RemoveAll(s[1..], pat);
      assert forall c :: c in s[1..] ==> c in s;
      ContainsPastHead(s, pat);
      [s[0]] + t
  }

  /** When a text does not start with `pat`, `pat` occurs in it exactly when
      it occurs after the first character. */
  lemma ContainsPastHead(s: string, pat: string)
    requires |s| > 0 && !(pat <= s)
    ensures Contains(s, pat) <==> Contains(s[1..], pat)
  {
    if Contains(s, pat) {
      var i :| 0 <= i <= |s| - |pat| && pat <= s[i..];
      assert i != 0;
      assert s[1..][i - 1..] == s[i..];
    }
    if Contains(s[1..], pat) {
      var i :| 0 <= i <= |s[1..]| - |pat| && pat <= s[1..][i..];
      assert s[1..][i..] == s[i + 1..];
    }
  }

  /** A pattern that holds a non-digit never occurs in a run of digits, so
      removing it from one changes nothing. */
  lemma {:induction false} RemoveAllFromDigits(s: string, pat: string)
    requires |pat| > 0 && !DigitsOnly(pat)
    requires DigitsOnly(s)
    ensures RemoveAll(s, pat) == s
    decreases |s|
  {
    if |s| >= |pat| {
      var k :| 0 <= k < |pat| && !IsDigit(pat[k]);
      assert s[k] != pat[k];
      RemoveAllFromDigits(s[1..], pat);
      assert s == [s[0]] + s[1..];
    }
  }

  // ---------------------------------------------------------------------------
  // Head of a split on a separator: `s.split(sep)[0]`

  /** Python's `s.split(sep)[0]`: everything before the first occurrence of
      `sep`, or the whole of `s` when `sep` does not occur. */
  function SplitHead(s: string, sep: string): (r: string)
    requires |sep| > 0
    ensures r <= s
    ensures forall i :: 0 <= i < |r| && i + |sep| <= |s| ==> !(sep <= s[i..])
    ensures |r| < |s| ==> |r| + |sep| <= |s| && sep <= s[|r|..]
    decreases |s|
  {
    if |s| < |sep| then s
    else if sep <= s then []
    else
      var t := SplitHead(s[1..], sep);
      assert forall i :: 1 <= i <= |s| ==> s[i..] == s[1..][i - 1..];
      [s[0]] + t
  }

  /** The head of a split recovers the first field whenever the separator
      starts with a character the field does not contain. */
  lemma {:induction false} SplitHeadOfJoin(a: string, sep: string, b: string)
    requires |sep| > 0
    requires forall i :: 0 <= i < |a| ==> a[i] != sep[0]
    ensures SplitHead(a + sep + b, sep) == a
    decreases |a|
  {
    var s := a + sep + b;
    if |a| == 0 {
      assert s == sep + b;
    } else {
      assert !(sep <= s) by {
        assert s[0] == a[0];
      }
      assert s[1..] == a[1..] + sep + b;
      SplitHeadOfJoin(a[1..], sep, b);
    }
  }
}

=== FILE: unique_ids.dfy ===
/** How a new user's unique id is made (`generate_unique_id` in login.py):
    the lower-cased last word of the name, the "stem", followed by a decimal
    counter one above the largest counter already used with that stem.

    The existing ids are those of the `users` table that start with the
    stem; the counter of such an id is what is left after deleting every
    occurrence of the stem from it, when that is a non-empty run of digits. */
module UniqueIds {
  import opened Wrappers
  import opened Text
  import Seqs

  /** `name.split()[-1]` on a name with no word raises an index error. */
  datatype IdError = NoWordInName

  /** The last whitespace-separated word of a name. */
  function LastWord(name: string): (w: string)
    requires !AllWhitespace(name)
    ensures |w| > 0 && NoWhitespace(w)
  {
    var words := Words(name);
    words[|words| - 1]
  }

  /** The stem of every id generated for this name. */
  function Stem(name: string): (stem: string)
    requires !AllWhitespace(name)
    ensures |stem| > 0 && NoWhitespace(stem)
    ensures |stem| == |LastWord(name)|
    ensures forall i :: 0 <= i < |stem| ==> (IsDigit(stem[i]) <==> IsDigit(LastWord(name)[i]))
  {
    LowerKeepsClasses(LastWord(name));
    Lower(LastWord(name))
  }

  /** The existing ids the lookup returns: those that start with the stem. */
  function Considered(existing: seq<string>, stem: string): (ids: seq<string>)
    ensures forall id :: id in ids <==> id in existing && stem <= id
  {
    Seqs.Filter(existing, (id: string) => stem <= id)
  }

  /** The counters found in `ids`: for each id whose remainder after deleting
      the stem is a non-empty run of digits, that remainder read as a number,
      and nothing else. */
  function Counters(ids: seq<string>, stem: string): (ns: seq<nat>)
    requires |stem| > 0
    ensures forall k :: 0 <= k < |ids| && IsDigitString(RemoveAll(ids[k], stem)) ==>
      DecimalValue(RemoveAll(ids[k], stem)) in ns
    ensures forall n :: n in ns ==>
      exists k :: (0 <= k < |ids| && IsDigitString(RemoveAll(ids[k], stem)) &&
                   n == DecimalValue(RemoveAll(ids[k], stem)))
  {
    if |ids| == 0 then []
    else
      var rest := RemoveAll(ids[0], stem);
      var tail := Counters(ids[1..], stem);
      assert forall k :: 1 <= k < |ids| ==> ids[k] == ids[1..][k - 1];
      if IsDigitString(rest) then [DecimalValue(rest)] + tail else tail
  }

  /** Python's `max(ns, default=0)`. */
  function MaxOrZero(ns: seq<nat>): (m: nat)
    ensures forall k :: 0 <= k < |ns| ==> ns[k] <= m
    ensures |ns| == 0 ==> m == 0
    ensures |ns| > 0 ==> m in ns
  {
    if |ns| == 0 then 0
    else
      var m := MaxOrZero(ns[1..]);
      if ns[0] >= m then ns[0] else m
  }

  /** The unique id for a new user named `name`, given the ids already in use.
      A name with no word is an error; otherwise the id is the stem followed
      by a positive decimal counter, and contains no whitespace. */
  function GenerateUniqueId(name: string, existing: seq<string>): (r: Result<string, IdError>)
    ensures r.Failure? <==> AllWhitespace(name)
    ensures r.Success? ==>
      && Stem(name) <= r.value
      && IsDigitString(r.value[|Stem(name)|..])
      && DecimalValue(r.value[|Stem(name)|..]) >= 1
      && NoWhitespace(r.value)
  {
    if AllWhitespace(name) then Failure(NoWordInName)
    else
      var stem := Stem(name);
      var considered := Considered(existing, stem);
      var counter := if |considered| == 0 then 1 else MaxOrZero(Counters(considered, stem)) + 1;
      var id := stem + DecimalString(counter);
      assert id[|stem|..] == DecimalString(counter);
      DecimalRoundTrip(counter);
      Success(id)
  }

  /** The first id for a stem gets counter 1; after that the counter is one
      above the largest counter found, or 1 again if none is found (only
      "smithson1" exists for stem "smith", say). */
  lemma CounterRule(name: string, existing: seq<string>)
    requires !AllWhitespace(name)
    ensures var stem := Stem(name);
      var considered := Considered(existing, stem);
      var id := GenerateUniqueId(name, existing).value;
      && (|considered| == 0 ==> id == stem + "1")
      && (|Counters(considered, stem)| == 0 ==> id == stem + "1")
      && (|Counters(considered, stem)| > 0 ==>
            id == stem + DecimalString(MaxOrZero(Counters(considered, stem)) + 1))
  {
  }

  /** When the surname holds at least one non-digit character, the generated
      id is not any id already in use. */
  lemma {:induction false} GeneratedIdIsFresh(name: string, existing: seq<string>)
    requires !AllWhitespace(name)
    requires !DigitsOnly(LastWord(name))
    ensures GenerateUniqueId(name, existing).value !in existing
  {
    var stem := Stem(name);
    LowerKeepsClasses(LastWord(name));
    assert !DigitsOnly(stem);
    var considered := Considered(existing, stem);
    var id := GenerateUniqueId(name, existing).value;
    if id in existing {
      var k :| 0 <= k < |existing| && existing[k] == id;
      assert id in considered;
      var counter := MaxOrZero(Counters(considered, stem)) + 1;
      assert id == stem + DecimalString(counter);
      var digits := DecimalString(counter);
      assert id[|stem|..] == digits;
      RemoveAllFromDigits(digits, stem);
      assert RemoveAll(id, stem) == digits;
      DecimalRoundTrip(counter);
      assert false;
    }
  }

  /** With an all-digit surname the id can collide: any name whose surname
      is "1" (such as "Agent 1") with "11" already in use yields "11" again,
      because deleting the stem "1" from "11" leaves an empty remainder, which
      is not a counter. */
  lemma AllDigitSurnameCollides(name: string)
    requires !AllWhitespace(name) && Stem(name) == "1"
    ensures GenerateUniqueId(name, ["11"]) == Success("11")
  {
    NoCounterInEleven();
    CounterRule(name, ["11"]);
    assert Stem(name) + "1" == "11";
    assert GenerateUniqueId(name, ["11"]).Success?;
  }

  /** "Agent 1" is such a name. */
  lemma StemOfAgentOne()
    ensures !AllWhitespace("Agent 1") && Stem("Agent 1") == "1"
  {
    StemOfFullName("Agent", "1");
    assert "Agent" + " " + "1" == "Agent 1";
    assert Lower("1") == "1";
  }

  lemma NoCounterInEleven()
    ensures Considered(["11"], "1") == ["11"]
    ensures Counters(["11"], "1") == []
  {
    assert RemoveAll("11", "1") == RemoveAll("1", "1") == RemoveAll("", "1") == "";
  }

  /** The stem of "first-part surname" is the lower-cased surname. */
  lemma StemOfFullName(given: string, surname: string)
    requires |surname| > 0 && NoWhitespace(surname)
    ensures !AllWhitespace(given + " " + surname)
    ensures Stem(given + " " + surname) == Lower(surname)
  {
    assert given + " " + surname == given + [' '] + surname;
    WordsOfJoin(given, ' ', surname);
    WordsOfWord(surname);
  }
}

=== FILE: wrappers.dfy ===
/** Failure-carrying datatypes used across the model: `Option` for lookups
    that may find nothing, `Result` for operations the program lets raise. */
module Wrappers {

  datatype Option<+T> = None | Some(value: T)

  datatype Result<+R, +E> = Success(value: R) | Failure(error: E)
}
